=== FILE: README.md ===
# Zone lifecycle engine

A model of the zone engine in `lib/setup.js`. A zone is a node in a tree of
asynchronous execution contexts. Each zone runs a body and records an outcome:
a result list, or an error where the first error wins. It counts the children
registered with it, and it may hold a queue of deferred callbacks. Once it has
an outcome and no children left, it closes and hands that outcome to its
parent through `finalize`. The parent then calls the zone's completion
callback, or has the child's error thrown into it (see "## Findings").

The model is functional. The state of the process is a `World` (module
`Arena`), which holds:

- an arena of zone records indexed by id;
- the id counter that stands for `uid()`;
- the ambient zone, which is the global `zone` variable;
- the host's `process.nextTick` queue, as a first-in-first-out list of pending
  `enter` requests;
- two logs of what the engine called outward: `child.signal(error)` calls and
  completion-callback calls.

JavaScript exceptions do not roll back state. So every engine operation
returns a `Step`: the world as it stands, plus `Ok`, `Raised(value)` or
`OutOfFuel`. User code is a list of `Action`s (module `Program`). They
cover:

- `return` and `throw`;
- a JavaScript `throw` that escapes the function;
- the usual `if (err) throw err` of a completion callback;
- constructing a child zone;
- `schedule`;
- the child bookkeeping closures and `setCallback`.

Values keep JavaScript truthiness, because every `if (error)` of the engine
depends on it.

Modules:

- `Values`: the values and the engine's usage errors.
- `Program`: the action language.
- `ZoneRecord`: the per-zone state and the closures that touch one zone.
- `Arena`: the world and the invariant `Valid`. Every operation keeps `Valid`:
  - `refs ⊆ children`, and the counters equal the set sizes;
  - no zone holds both a result and a truthy error;
  - parents have smaller ids;
  - every zone shares its parent's root;
  - the root never closes;
  - a pending `enter` names a scheduled, idle, open zone, and no zone has two;
  - every logged signal is recorded in the sender's `sentSignals`, and no child
    is signalled twice.

  `Arena` also defines the frame predicates `Extends` and `Quiet`. Zones are
  never removed. Parents and roots never change. A closed zone stays closed.
  Recorded signals persist. Zones that an operation does not run keep their
  entry count and closed flag, and their queues only grow at the back.
- `Engine`: `schedule`, `throw`, `return`, `_register`, the catch clause of
  `invoke` and the broadcast step of `flush`.
- `Lifecycle`: the mutually recursive core: `call`, `invoke`, `flush`,
  `finalize` and the constructor.
- `Host`: `enter`, the tick loop and the creation of the root zone.
- `Ancestry`: `parentOf` and `childOf`.
- `Findings`: the `finalize` discrepancy below.

Two behaviours of the code worth stating up front:

- `return` on a zone that already failed does nothing. `return` on a zone that
  already has a result fails the zone with "Zone result already set."
- The root zone never closes or finalizes. An error reaching it is recorded
  as its outcome.

## Model

| member | source | states |
|---|---|---|
| ZoneRecord.NewZone | lib/setup.js:57-74 | a fresh zone has no outcome, no children, refs, signals or queued tasks, is idle, unscheduled and open, and satisfies the bookkeeping invariant |
| ZoneRecord.RegisterChild | lib/setup.js:239-258 | fails with "already registered" exactly when the id is a child; otherwise adds exactly that id to `children` (count +1), adds it to `refs` (count +1) exactly when `ref` is set, changes nothing else and keeps `refs ⊆ children` and the counts |
| ZoneRecord.UnregisterChild | lib/setup.js:260-271 | fails with "not registered" exactly when the id is not a child; otherwise removes it from `children` and `refs`, decrementing each count that held it, and keeps the invariant |
| ZoneRecord.RefChild | lib/setup.js:273-282 | fails for an unregistered id; otherwise `refs` gains the id and `refCount` grows by one only if it was not live |
| ZoneRecord.UnrefChild | lib/setup.js:284-293 | fails for an unregistered id; otherwise `refs` loses the id and `refCount` drops by one only if it was live |
| ZoneRecord.RecordError | lib/setup.js:214-222 | with a truthy error recorded nothing changes; otherwise the new error is stored and the result cleared, so a result never coexists with a truthy error |
| ZoneRecord.RecordResult | lib/setup.js:204-212 | on a zone with neither outcome, the argument list becomes the result and the zone has an outcome |
| ZoneRecord.FalsyErrorBesideResult | lib/setup.js:204-221 | after `throw` of a falsy value the zone has that error and no outcome; a following `return(...values)` then stores the values as a result beside the falsy error, and so does the empty result of `flush` when no refs are live |
| ZoneRecord.AutoResolve | lib/setup.js:94-95 | a zone without live refs has an outcome afterwards; the only possible change is a result of `[]`, and a zone that has an outcome or live refs is untouched |
| ZoneRecord.BindCallback | lib/setup.js:295-301 | fails with "Callback already set" exactly when a callback is bound; otherwise binds the given one and changes nothing else |
| ZoneRecord.RegisterUnregister | lib/setup.js:239-271 | registering a fresh id and unregistering it restores the zone exactly |
| ZoneRecord.RefIdempotent | lib/setup.js:273-282 | a second `_ref` of the same id changes nothing |
| ZoneRecord.UnrefIdempotent | lib/setup.js:284-293 | a second `_unref` of the same id changes nothing |
| ZoneRecord.RefUnref | lib/setup.js:273-293 | `_unref` undoes `_ref` of a registered child that was not live |
| ZoneRecord.FirstErrorWins | lib/setup.js:214-222 | after a truthy error, later `throw`s change nothing and the error is the first truthy one |
| ZoneRecord.BindOnce | lib/setup.js:295-301 | after a successful `setCallback`, a second one throws "Callback already set" and the first callback stays bound |
| Arena.BroadcastValid | lib/setup.js:99-108 | recording the error for every pending child and logging one signal per child keeps the world valid, in particular no child is ever signalled twice |
| Engine.Enqueue | lib/setup.js:166-170 | the task joins the back of the queue, an idle zone becomes scheduled, nothing else changes, and the world stays valid |
| Engine.Schedule | lib/setup.js:163-174 | a closed zone throws "This domain is closed" and nothing changes; otherwise the task is appended, and one `enter` is added to the tick queue exactly when the zone was neither scheduled nor entered |
| Engine.ScheduleTwice | lib/setup.js:163-174 | two schedules on an open zone queue both tasks in call order and add at most one pending `enter` |
| Engine.ThrowOn | lib/setup.js:214-222 | a zone that already failed is left alone; otherwise the error replaces any result, and `schedule()` follows: on an open zone `scheduled` is set unless it is running, and one `enter` is queued exactly when it was neither scheduled nor running; on a closed zone the record keeps the new error and the usage error is thrown; no other zone changes |
| Engine.ReturnOn | lib/setup.js:204-212 | no-op on a failed zone; on a zone with a result it is exactly `throw` of "Zone result already set.", so that error is recorded and `throw`'s `schedule()` follows; otherwise records the values as the result and `schedule()` follows, with the same flag and `enter` effect as for `throw`; throws only on a closed zone; no other zone changes |
| Engine.CatchOn | lib/setup.js:79-81 | a caught `undefined` or `null` makes reading its `stack` throw a `TypeError` and changes nothing; any other value goes to the zone's `throw`, so it becomes the error of a zone that has not failed; only those two errors can escape |
| Engine.RegisterOn | lib/setup.js:239-258 | a missing id is drawn from the counter; fails exactly when the id is already a child; on success the id joins the children and is live exactly when `ref` is nullish or truthy |
| Engine.Ascending | lib/setup.js:102 | lists every element of the set exactly once, in increasing order |
| Engine.SignalPass | lib/setup.js:97-108 | reports whether any child was pending; afterwards no child is pending, each newly signalled child has the zone's error recorded, and the log gains exactly one call per pending child carrying that error |
| Engine.AscendingLog | lib/setup.js:102-109 | a broadcast in ascending order has one entry per child, each from the zone with its error, none repeated |
| Lifecycle.Begin | lib/setup.js:130-133 | entering raises the entry count by one and makes the zone ambient, nothing else changes |
| Lifecycle.End | lib/setup.js:140-142 | leaving restores the ambient zone and lowers the entry count by one |
| Lifecycle.Close | lib/setup.js:116-121 | marks the zone closed and appends its `finalize` to the parent's queue; throws exactly when the parent is closed |
| Lifecycle.RunAction | lib/setup.js:76-83 | one statement of user code keeps the world valid; a raised value is reported as raised and `if (err) throw err` raises exactly a truthy argument |
| Lifecycle.RunActions | lib/setup.js:76-83 | running a function keeps the world valid and touches no other zone's entry state; an empty function changes nothing, and one whose first statement throws throws that value and changes nothing |
| Lifecycle.Attach | lib/setup.js:57-59 | a new zone gets the next id, has the ambient zone as parent, is not a root, is registered as a child of the ambient zone and is live there; without an ambient zone the constructor throws |
| Lifecycle.Construct | lib/setup.js:318-341 | the constructor draws a fresh id and attaches the zone under the ambient zone; on success the new zone has been called and, as the outermost entry, flushed: it is left idle and settled (empty queue, unscheduled, an outcome unless live refs remain, children signalled, closed with `finalize` queued on the parent exactly when it could close), and an `Afterwards` binding has bound its callback |
| Lifecycle.Populate | lib/setup.js:337 | calling the body in an attached, idle, open zone leaves it idle and settled on success, with a callback bound afterwards when asked |
| Lifecycle.BindAfter | lib/setup.js:295-301 | `setCallback` on a zone the constructor settled fails if a callback is bound; otherwise it binds the function, changes nothing else and keeps the zone settled |
| Lifecycle.Call | lib/setup.js:126-143 | a closed zone throws and nothing changes; otherwise on return the ambient zone and entry count are restored, and an outermost call leaves the zone settled: empty queue, unscheduled, an outcome unless live refs remain, every child signalled once there is an outcome, and closed with `finalize` queued exactly when it could close |
| Lifecycle.Entered | lib/setup.js:135-138 | invoke, then flush only at the outermost entry; the entry count is unchanged, an outermost entry leaves the zone settled, and a nested entry runs no flush, so no zone is entered, left or closed and no queue loses a task |
| Lifecycle.Invoke | lib/setup.js:76-83 | a value thrown by the task goes through the catch clause: a non-nullish one becomes the error of a zone that has not failed, a nullish one makes a `TypeError` escape; the `finalize` of a callback-less child that returned therefore throws that `TypeError` out of the parent, and that of a child with a falsy, non-nullish error makes that error the parent's, clearing its result; the closed-zone usage error escapes only from a closed zone |
| Lifecycle.Detach | lib/setup.js:176-190 | `finalize` asserts it is idle, unscheduled, closed, childless, ref-free and has an outcome; then the parent unregisters it, failing if it is not a child, and the parent's outcome is untouched |
| Lifecycle.Finalize | lib/setup.js:176-197 | after the asserts and the unregistration, a callback receives `[error].concat(result)` in the parent; with no callback the child's error is thrown into the parent whatever it is, even `undefined` |
| Lifecycle.Shift | lib/setup.js:90 | takes the head of the queue and leaves the rest |
| Lifecycle.Drain | lib/setup.js:88-91 | runs tasks until the queue is empty; the tasks queued on entry run first, in their order; only the closed-zone usage error or the catch clause's `TypeError` escapes |
| Lifecycle.FlushLoop | lib/setup.js:87-113 | on exit the queue is empty, the zone has an outcome unless live refs remain, and with an outcome every child has been signalled |
| Lifecycle.Flush | lib/setup.js:85-124 | requires to be the outermost entry (else the assertion fails); on success the zone is settled |
| Lifecycle.FlushEnd | lib/setup.js:116-123 | closes exactly when childless, with an outcome and not the root, queueing `finalize` on the parent; clears `scheduled` |
| Host.Enter | lib/setup.js:145-161 | asserts the zone is open, scheduled and idle; then flushes it, restores the ambient zone and entry count, and leaves it settled |
| Host.RunTick | lib/setup.js:172 | serves the oldest pending `enter`: in a world where no zone with a pending `enter` was called in between, its asserts hold, only what can escape `invoke` escapes, and on success that zone is left settled |
| Host.RunLoop | lib/setup.js:172 | a normal end leaves no `enter` pending, only what can escape `invoke` escapes, and with nothing pending nothing happens |
| Host.Boot | lib/setup.js:349-351 | the root zone has no parent, is its own root and is open, and becomes the ambient zone |
| Ancestry.Lineage | lib/setup.js:307-308 | the walk up the parent links starts at the zone and stays in the arena |
| Ancestry.ParentOf | lib/setup.js:303-312 | false for the zone itself, otherwise true exactly when `self` is on the walk up from `that` |
| Ancestry.ChildOf | lib/setup.js:314-316 | true exactly when `that` is a proper ancestor of `self` |
| Ancestry.LineageDescends | lib/setup.js:57-59 | ids strictly decrease up the tree, so the walk ends |
| Ancestry.LineageEndsAtRoot | lib/setup.js:199-202 | the walk ends at the zone's `root`, which is a root zone |
| Ancestry.Antisymmetric | lib/setup.js:303-312 | two distinct zones are never each other's ancestor |
| Ancestry.Transitive | lib/setup.js:303-312 | an ancestor of an ancestor is an ancestor |
| Ancestry.LineageStable | lib/setup.js:321-327 | ancestry never changes as the engine runs |
| Findings.AsWrittenEscapes | lib/setup.js:176-196 | as written, the parent's `invoke` of the `finalize` of a callback-less child that returned throws the catch clause's `TypeError` |
| Findings.FinalizeBareKeepsParent | lib/setup.js:191-196 | as intended, a child that returned leaves the parent's world unchanged, a failed child passes its error on with the first error winning, no `TypeError` escapes and the parent keeps its outcome |
| Findings.AsWrittenErasesResult | lib/setup.js:176-196 | as written, the parent's `invoke` of the `finalize` of a callback-less child whose error is falsy but not nullish makes that error the parent's and clears the parent's result |
| Findings.AsWrittenDiffers | lib/setup.js:191-196 | the two versions differ exactly for a child without a truthy error |

## Left out

- Argument plumbing is not modelled: the non-`new` bound constructor and the options and callback shuffling (lib/setup.js:19-30, 41-55). The `this_` and `arguments_` of `call`, `schedule` and `invoke` are left out too.
- `self.callback` (lib/setup.js:224-229) is not modelled. It passes a number to `slice.apply`, so it has no clean contract.
- `onsignal` overrides are not modelled. `signal` calls `onsignal`, whose default does nothing (lib/setup.js:231-238), so a signal is only logged.
- Signal order across siblings is not claimed. The model signals pending children in ascending id order. The source iterates an object's keys, and that order is a property of the runtime.
- Only child ids are kept. The child objects stored in `children` are dropped; they matter only as receivers of `signal`.
- `callback.zone = self` (lib/setup.js:300) is not modelled. The model does not track which zone a function object belongs to.
- The `name` property, the `Zone.prototype` link, the output of `console.log`, and the monkey-patching of `require` (lib/setup.js:353-367) are left out.
- `process.nextTick` is modelled only as the FIFO list of pending `enter` requests.
- `lib/uid.js` and `lib/Gate.js` are not part of this model. `uid()` is a counter, starting at 0 for the root. A gate is a child registered with `_register` and removed with `_unregister`.
- Numbers are integers. Floating point, `NaN` and the truthiness of `NaN` are not modelled.
- `smoke.js`, a demo driver over timers and the file system, is not modelled.
- Fuel: every operation of the recursive core takes a fuel bound and stops with `OutOfFuel` when it runs out. No contract claims anything about that case beyond validity of the world. A body that spawns zones or queues tasks without end is modelled only up to the bound.
- Lifecycle.Call: requires that the zone has no pending `enter`. The source publishes `call` (lib/setup.js:329), so user code may call any zone. The action language has no `call` statement: only the constructor and the creation of the root call a zone, each on a zone that was just created. Nested entries, with an entry count above one, are therefore never reached in the model; Lifecycle.Entered still states what one does.
- Lifecycle.RunActions: states validity and the frame only. What a function does is stated per action by RunAction and the operations it calls.
- Lifecycle.Construct: states the new zone's settled state but not what its body did to other zones. Those effects are stated per action by RunAction.
- Host.Boot: does not promise that booting ends without error. Its contract covers the shape of the root zone, and the ambient zone when booting succeeds.
- Host.RunLoop: does not promise to serve every tick within a given number of turns. A tick can queue further ticks.
- Ancestry.ParentOf: `that` must be a zone of the arena. The source also accepts `null` and other objects, and returns false for them.
- Ancestry.ChildOf: `that` must be a zone of the arena. In the source `childOf(null)` throws a `TypeError` at `that.parentOf` (lib/setup.js:315), and that error path is not modelled.
- ZoneRecord.RecordError: the promise that a zone never holds both a result and an error holds only for truthy errors. `throw` and `return` test the error for truthiness (lib/setup.js:205, 215), so after `throw(0)` a `return(x)` or the empty result of `flush` (lib/setup.js:94-95) leaves the error `0` beside a result. `ZoneRecord.Wf` states the weaker invariant, and `ZoneRecord.FalsyErrorBesideResult` shows the coexistence.
- Lifecycle.RunAction: every action acts on the running zone, and `Spawn` acts on the ambient zone; `Host.RunLoop` serves only pending `enter` requests. So the model cannot express code outside any zone that acts on an idle zone: a gate's `schedule` or `_unregister` run from a timer or an I/O callback (smoke.js:14-17, 66-71), the asynchronous re-entry that follows, `zone.parent.throw(e)`, and `return` or `_unref` on another zone. A zone with a live ref that is not released in the same flush therefore never settles in the model.
- Host.RunTick: relies on the invariant that a zone with a pending `enter` is scheduled, idle and open, which holds because the model never calls such a zone. The source publishes `call` (lib/setup.js:329), and `call` does not look at `scheduled`. Code in another zone can call a zone whose `enter` is pending. That call's flush clears `scheduled` (lib/setup.js:123) and may close the zone (lib/setup.js:116-121). When the pending `enter` runs, `assert(scheduled)` or `assert(!closed)` (lib/setup.js:146-147) fails, uncaught, from the tick. That hazard is not modelled.

## Findings

| source | as written | input that shows it | evidently intended | confidence | as-written member | corrected member |
|---|---|---|---|---|---|---|
| lib/setup.js:191-196 | `finalize` of a child without a completion callback ends in `throw error` whatever `error` is | a child that returned, so its error is `undefined`. The parent's `invoke` catches `undefined`, and its catch clause reads `undefined.stack` (lib/setup.js:80). That throws a `TypeError` out of the parent's `invoke`, its flush and the `enter` or `call` that ran it. The parent's restores of the ambient zone and the entry count are skipped, and from a tick the error is uncaught. A child that threw a falsy, non-nullish value such as `0` and was then resolved to `[]` (lib/setup.js:94-95) has that value thrown instead. The parent's `throw` takes it and clears the parent's result (lib/setup.js:218-219); `Findings.AsWrittenErasesResult` shows this. | `throwIfError(error)` (lib/setup.js:11-14). It is defined in the same file and never called, and it leaves a successful child silent. | medium, not executed | Findings.AsWrittenEscapes | Findings.FinalizeBareKeepsParent |

`Lifecycle.Finalize` follows the code as written. The corrected variant is `Findings.FinalizeBare`, and `Findings.AsWrittenDiffers` shows the two differ exactly for a child without a truthy error.

=== FILE: ancestry.dfy ===
/** `parentOf` and `childOf`: walks up the `parent` links of the zone tree. */
module Ancestry {
  import opened Values
  import opened ZoneRecord
  import opened Arena

  /** The zone `id` followed by its parent, grandparent, ... up to a zone
      without a parent. Parents have smaller ids, so the walk ends. */
  function Lineage(w: World, id: Id): (l: seq<Id>)
    requires Valid(w) && id in w.zones
    ensures |l| >= 1 && l[0] == id
    ensures forall k :: 0 <= k < |l| ==> l[k] in w.zones
    decreases id
  {
    assert ZoneOk(w, id);
    var z := w.zones[id];
    if z.parent.None? then [id] else [id] + Lineage(w, z.parent.value)
  }

  /** `that` is `self` or lies below it. */
  ghost predicate Below(w: World, that: Id, self: Id)
    requires Valid(w) && that in w.zones
  {
    self in Lineage(w, that)
  }

  /** `self.parentOf(that)`: false for the zone itself, otherwise whether
      `self` is met walking up from `that`. */
  method ParentOf(w: World, self: Id, that: Id) returns (b: bool)
    requires Valid(w) && self in w.zones && that in w.zones
    ensures b <==> self != that && Below(w, that, self)
  {
    if that == self {
      return false;
    }
    var cur := Some(that);
    while cur.Some?
      invariant cur.Some? ==> cur.value in w.zones
      invariant Below(w, that, self) <==> cur.Some? && Below(w, cur.value, self)
      decreases if cur.Some? then cur.value + 1 else 0
    {
      var c := cur.value;
      if c == self {
        return true;
      }
      assert ZoneOk(w, c);
      cur := w.zones[c].parent;
    }
    return false;
  }

  /** `self.childOf(that)`, which asks `that.parentOf(self)`. */
  method ChildOf(w: World, self: Id, that: Id) returns (b: bool)
    requires Valid(w) && self in w.zones && that in w.zones
    ensures b <==> self != that && Below(w, self, that)
  {
    b := ParentOf(w, that, self);
  }

  /** Ids strictly decrease along a lineage. */
  lemma {:induction false} LineageDescends(w: World, id: Id)
    requires Valid(w) && id in w.zones
    ensures forall i :: 0 <= i < |Lineage(w, id)| ==> Lineage(w, id)[i] <= id
    ensures forall i :: 0 < i < |Lineage(w, id)| ==> Lineage(w, id)[i] < id
    decreases id
  {
    assert ZoneOk(w, id);
    var z := w.zones[id];
    if z.parent.Some? {
      LineageDescends(w, z.parent.value);
    }
  }

  /** A lineage ends at the zone's `root`, which is a root zone: `root` is
      the top of the tree the zone hangs in. */
  lemma {:induction false} LineageEndsAtRoot(w: World, id: Id)
    requires Valid(w) && id in w.zones
    ensures var l := Lineage(w, id);
      && l[|l| - 1] == w.zones[id].root
      && w.zones[l[|l| - 1]].isRoot
    decreases id
  {
    assert ZoneOk(w, id);
    var z := w.zones[id];
    if z.parent.Some? {
      LineageEndsAtRoot(w, z.parent.value);
      LineageDescends(w, z.parent.value);
    }
  }

  /** Two distinct zones are never each other's ancestor. */
  lemma {:induction false} Antisymmetric(w: World, a: Id, b: Id)
    requires Valid(w) && a in w.zones && b in w.zones
    requires Below(w, a, b) && Below(w, b, a)
    ensures a == b
  {
    LineageDescends(w, a);
    LineageDescends(w, b);
  }

  /** Being below is transitive: the lineage of `b` is a suffix of the
      lineage of any zone below `b`. */
  lemma {:induction false} Transitive(w: World, a: Id, b: Id, c: Id)
    requires Valid(w) && a in w.zones && b in w.zones && c in w.zones
    requires Below(w, a, b) && Below(w, b, c)
    ensures Below(w, a, c)
    decreases a
  {
    assert ZoneOk(w, a);
    var z := w.zones[a];
    if a != b {
      assert z.parent.Some?;
      assert Below(w, z.parent.value, b);
      Transitive(w, z.parent.value, b, c);
    }
  }

  /** Lineages never change as the engine runs: parents are fixed at
      construction. */
  lemma {:induction false} LineageStable(w1: World, w2: World, id: Id)
    requires Valid(w1) && Valid(w2) && Extends(w1, w2) && id in w1.zones
    ensures id in w2.zones && Lineage(w2, id) == Lineage(w1, id)
    decreases id
  {
    assert Kept(w1.zones[id], w2.zones[id]);
    assert ZoneOk(w1, id);
    var z := w1.zones[id];
    if z.parent.Some? {
      LineageStable(w1, w2, z.parent.value);
    }
  }
}

=== FILE: arena.dfy ===
/** The process state the engine works on: every zone ever constructed, kept
    in an arena keyed by id, the `uid` counter, the ambient zone (the
    source's global `zone`), the `nextTick` queue of pending `enter`s, and two
    observation logs. */
module Arena {
  import opened Values
  import opened Program
  import opened ZoneRecord

  /** How a piece of engine code ended: normally, by throwing a value (the
      state changes made before the throw stay, as in JavaScript), or by
      running out of the interpreter's fuel. */
  datatype Status = Ok | Raised(thrown: Value) | OutOfFuel

  /** One `child.signal(error)` call made by a flush. */
  datatype Signal = Signal(from: Id, to: Id, error: Value)

  /** One completion-callback call: the finished zone, the receiver (its
      parent) and the argument list. */
  datatype Delivery = Delivery(zone: Id, receiver: Id, args: seq<Value>)

  datatype World = World(
    zones: map<Id, Zone>,
    nextUid: nat,
    ambient: Option<Id>,
    ticks: seq<Id>,
    signals: seq<Signal>,
    deliveries: seq<Delivery>)

  /** The state after running some engine code, and how it ended. A failed
      step carries the state reached when the exception was thrown. */
  datatype Step = Step(w: World, status: Status) {
    predicate IsFailure() {
      !status.Ok?
    }
  }

  /** A queued task may only name a zone of the arena. */
  ghost predicate TaskOk(w: World, t: Task) {
    t.Finalize? ==> t.child in w.zones
  }

  /** Everything that must hold of one zone of the arena. */
  ghost predicate ZoneOk(w: World, id: Id)
    requires id in w.zones
  {
    var z := w.zones[id];
    && z.id == id
    && Wf(z)
    && id < w.nextUid
    && z.enterCount >= 0
    && (z.isRoot <==> z.parent.None?)
    && (z.parent.Some? ==> z.parent.value in w.zones && z.parent.value < id)
    && z.root in w.zones && w.zones[z.root].isRoot
    && (z.isRoot ==> z.root == id)
    && (z.parent.Some? ==> z.root == w.zones[z.parent.value].root)
    && (z.isRoot ==> !z.closed)
    && (forall i :: 0 <= i < |z.callbackQueue| ==> TaskOk(w, z.callbackQueue[i]))
  }

  /** Pending `enter`s: each names a scheduled, idle, open zone, and no zone
      has two. */
  ghost predicate TicksOk(w: World) {
    && (forall i :: 0 <= i < |w.ticks| ==>
          w.ticks[i] in w.zones && w.zones[w.ticks[i]].scheduled && w.zones[w.ticks[i]].enterCount == 0
          && !w.zones[w.ticks[i]].closed)
    && (forall i, j :: 0 <= i < j < |w.ticks| ==> w.ticks[i] != w.ticks[j])
  }

  /** Every delivered signal is recorded, with the error it carried, in the
      sender's `sentSignals`, and no sender signalled the same child twice. */
  ghost predicate SignalsOk(w: World) {
    && (forall i :: 0 <= i < |w.signals| ==>
          && w.signals[i].from in w.zones && w.signals[i].to in w.zones[w.signals[i].from].sentSignals
          && w.zones[w.signals[i].from].sentSignals[w.signals[i].to] == w.signals[i].error)
    && (forall i, j :: 0 <= i < j < |w.signals| ==>
          (w.signals[i].from, w.signals[i].to) != (w.signals[j].from, w.signals[j].to))
  }

  /** The invariant of the whole process state. */
  ghost predicate Valid(w: World) {
    && (forall id {:trigger ZoneOk(w, id)} :: id in w.zones ==> ZoneOk(w, id))
    && TicksOk(w)
    && SignalsOk(w)
    && (w.ambient.Some? ==> w.ambient.value in w.zones)
  }

  /** `m2` keeps every entry of `m1`. */
  ghost predicate MapGrows(m1: map<Id, Value>, m2: map<Id, Value>) {
    forall c :: c in m1 ==> c in m2 && m2[c] == m1[c]
  }

  /** A later record of the same zone: same place in the tree, still
      closed if it was, and every signal it had recorded is still recorded
      unchanged. */
  ghost predicate Kept(a: Zone, b: Zone) {
    && MapGrows(a.sentSignals, b.sentSignals)
    && b.parent == a.parent
    && b.isRoot == a.isRoot
    && b.root == a.root
    && (a.closed ==> b.closed)
  }

  /** What no engine step ever undoes: zones are never removed or reopened,
      ids never reused, a signal once recorded is never re-sent or changed,
      and the logs only grow. */
  ghost predicate Extends(w1: World, w2: World) {
    && w1.zones.Keys <= w2.zones.Keys
    && w1.nextUid <= w2.nextUid
    && w1.signals <= w2.signals
    && w1.deliveries <= w2.deliveries
    && (forall id {:trigger w1.zones[id]} :: id in w1.zones ==> Kept(w1.zones[id], w2.zones[id]))
  }

  /** Neither entered, left nor closed, and nothing taken off the callback
      queue: tasks can only have been added at the back. */
  ghost predicate Idle(a: Zone, b: Zone) {
    && b.enterCount == a.enterCount
    && b.closed == a.closed
    && a.callbackQueue <= b.callbackQueue
  }

  /** Zones other than those in `ex` were neither entered, left nor closed,
      and their queues only grew at the back. */
  ghost predicate Quiet(w1: World, w2: World, ex: set<Id>) {
    forall id {:trigger w1.zones[id]} :: id in w1.zones && id !in ex ==>
      id in w2.zones && Idle(w1.zones[id], w2.zones[id])
  }

  /** Store a changed zone record back into the arena. */
  function Put(w: World, z: Zone): (w': World)
    ensures w'.zones == w.zones[z.id := z]
    ensures w'.(zones := w.zones) == w
  {
    w.(zones := w.zones[z.id := z])
  }

  /** The conditions under which replacing one record keeps the arena valid. */
  ghost predicate Replaceable(w: World, z: Zone) {
    && z.id in w.zones
    && var old_ := w.zones[z.id];
    && Wf(z)
    && z.enterCount >= 0
    && z.parent == old_.parent && z.isRoot == old_.isRoot && z.root == old_.root
    && (old_.closed ==> z.closed)
    && (z.isRoot ==> !z.closed)
    && (forall i :: 0 <= i < |z.callbackQueue| ==> TaskOk(w, z.callbackQueue[i]))
    && MapGrows(old_.sentSignals, z.sentSignals)
    && (z.id in w.ticks ==> z.scheduled && z.enterCount == 0 && !z.closed)
  }

  lemma PutValid(w: World, z: Zone)
    requires Valid(w) && Replaceable(w, z)
    ensures Valid(Put(w, z)) && Extends(w, Put(w, z))
    ensures Idle(w.zones[z.id], z) ==> Quiet(w, Put(w, z), {})
    ensures Quiet(w, Put(w, z), {z.id})
  {
    PutZonesOk(w, z);
    PutTicksOk(w, z);
    PutSignalsOk(w, z);
  }

  /** A record that differs from the stored one only in its child sets,
      counters, outcome and callback can replace it. */
  lemma Touch(w: World, z: Zone)
    requires Valid(w) && z.id in w.zones && Wf(z)
    requires var o := w.zones[z.id];
      z.(children := o.children, refs := o.refs, childCount := o.childCount, refCount := o.refCount,
         result := o.result, error := o.error, callback := o.callback) == o
    ensures Replaceable(w, z)
    ensures Valid(Put(w, z)) && Extends(w, Put(w, z)) && Quiet(w, Put(w, z), {})
  {
    var o := w.zones[z.id];
    assert ZoneOk(w, z.id);
    assert z.callbackQueue == o.callbackQueue && z.sentSignals == o.sentSignals;
    PutValid(w, z);
  }

  lemma PutZonesOk(w: World, z: Zone)
    requires forall id {:trigger ZoneOk(w, id)} :: id in w.zones ==> ZoneOk(w, id)
    requires Replaceable(w, z)
    ensures forall id {:trigger ZoneOk(Put(w, z), id)} :: id in Put(w, z).zones ==> ZoneOk(Put(w, z), id)
  {
    var w' := Put(w, z);
    forall id | id in w'.zones
      ensures ZoneOk(w', id)
    {
      assert ZoneOk(w, id);
      if id == z.id {
        PutSelfOk(w, z);
      } else {
        ZoneOkGrows(w, w', id);
      }
    }
  }

  lemma PutSelfOk(w: World, z: Zone)
    requires z.id in w.zones && ZoneOk(w, z.id)
    requires Replaceable(w, z)
    ensures ZoneOk(Put(w, z), z.id)
  {
    var w' := Put(w, z);
    assert w'.zones[z.id] == z;
    forall i | 0 <= i < |z.callbackQueue|
      ensures TaskOk(w', z.callbackQueue[i])
    {
      assert TaskOk(w, z.callbackQueue[i]);
    }
  }

  /** A zone's own record stays valid while the arena grows around it. */
  lemma ZoneOkGrows(w: World, w': World, id: Id)
    requires id in w.zones && ZoneOk(w, id)
    requires w.zones.Keys <= w'.zones.Keys && w.nextUid <= w'.nextUid
    requires w'.zones[id] == w.zones[id]
    requires forall k :: k in w.zones ==> w'.zones[k].isRoot == w.zones[k].isRoot && w'.zones[k].root == w.zones[k].root
    ensures ZoneOk(w', id)
  {
    var z := w.zones[id];
    assert w'.zones[z.root].isRoot;
    forall i | 0 <= i < |z.callbackQueue|
      ensures TaskOk(w', z.callbackQueue[i])
    {
      assert TaskOk(w, z.callbackQueue[i]);
    }
  }

  lemma PutTicksOk(w: World, z: Zone)
    requires TicksOk(w) && z.id in w.zones
    requires z.id in w.ticks ==> z.scheduled && z.enterCount == 0 && !z.closed
    ensures TicksOk(Put(w, z))
  {
    var w' := Put(w, z);
    forall i | 0 <= i < |w'.ticks|
      ensures w'.ticks[i] in w'.zones && w'.zones[w'.ticks[i]].scheduled && w'.zones[w'.ticks[i]].enterCount == 0
      ensures !w'.zones[w'.ticks[i]].closed
    {
      if w.ticks[i] == z.id {
        assert z.id in w.ticks;
      }
    }
  }

  lemma PutSignalsOk(w: World, z: Zone)
    requires SignalsOk(w) && z.id in w.zones
    requires MapGrows(w.zones[z.id].sentSignals, z.sentSignals)
    ensures SignalsOk(Put(w, z))
  {
    var w' := Put(w, z);
    forall i | 0 <= i < |w'.signals|
      ensures w'.signals[i].to in w'.zones[w'.signals[i].from].sentSignals
      ensures w'.zones[w'.signals[i].from].sentSignals[w'.signals[i].to] == w'.signals[i].error
    {
      var s := w.signals[i];
      assert s.to in w.zones[s.from].sentSignals;
    }
  }

  /** Changing nothing but the id counter, the ambient zone, the pending
      `enter`s or the logs leaves every zone record valid. */
  lemma ZonesOkTransfer(w: World, w': World)
    requires forall id {:trigger ZoneOk(w, id)} :: id in w.zones ==> ZoneOk(w, id)
    requires w'.zones == w.zones && w.nextUid <= w'.nextUid
    ensures forall id {:trigger ZoneOk(w', id)} :: id in w'.zones ==> ZoneOk(w', id)
  {
    forall id | id in w'.zones
      ensures ZoneOk(w', id)
    {
      assert ZoneOk(w, id);
      ZoneOkGrows(w, w', id);
    }
  }

  lemma WithAmbient(w: World, a: Option<Id>)
    requires Valid(w) && (a.Some? ==> a.value in w.zones)
    ensures Valid(w.(ambient := a)) && Extends(w, w.(ambient := a)) && Quiet(w, w.(ambient := a), {})
  {
    ZonesOkTransfer(w, w.(ambient := a));
  }

  /** `uid()`: the counter moves past the id it hands out. */
  lemma BumpUid(w: World)
    requires Valid(w)
    ensures Valid(w.(nextUid := w.nextUid + 1)) && Extends(w, w.(nextUid := w.nextUid + 1))
    ensures Quiet(w, w.(nextUid := w.nextUid + 1), {})
  {
    ZonesOkTransfer(w, w.(nextUid := w.nextUid + 1));
  }

  /** A zone that is being run is never waiting for a deferred `enter`. */
  lemma EnteredNotTicked(w: World, id: Id)
    requires TicksOk(w) && id in w.zones && w.zones[id].enterCount != 0
    ensures id !in w.ticks
  {
    forall i | 0 <= i < |w.ticks|
      ensures w.ticks[i] != id
    {
    }
  }

  /** A zone that did not ask for a deferred `enter` has none pending. */
  lemma UnscheduledNotTicked(w: World, id: Id)
    requires TicksOk(w) && id in w.zones && !w.zones[id].scheduled
    ensures id !in w.ticks
  {
    forall i | 0 <= i < |w.ticks|
      ensures w.ticks[i] != id
    {
    }
  }

  /** `nextTick(enter)` for an idle zone that has just been marked scheduled. */
  lemma TickAppend(w: World, id: Id)
    requires Valid(w) && id in w.zones && id !in w.ticks
    requires w.zones[id].scheduled && w.zones[id].enterCount == 0 && !w.zones[id].closed
    ensures Valid(w.(ticks := w.ticks + [id])) && Extends(w, w.(ticks := w.ticks + [id]))
    ensures Quiet(w, w.(ticks := w.ticks + [id]), {})
  {
    var w' := w.(ticks := w.ticks + [id]);
    ZonesOkTransfer(w, w');
    forall i, j | 0 <= i < j < |w'.ticks|
      ensures w'.ticks[i] != w'.ticks[j]
    {
      if j == |w.ticks| {
        assert w'.ticks[i] == w.ticks[i];
      }
    }
  }

  /** The host takes the oldest pending `enter` off the queue. */
  lemma TickPop(w: World)
    requires Valid(w) && w.ticks != []
    ensures Valid(w.(ticks := w.ticks[1..])) && Extends(w, w.(ticks := w.ticks[1..]))
    ensures Quiet(w, w.(ticks := w.ticks[1..]), {})
    ensures w.ticks[0] in w.zones && w.ticks[0] !in w.ticks[1..]
  {
    var w' := w.(ticks := w.ticks[1..]);
    ZonesOkTransfer(w, w');
    forall i | 0 <= i < |w.ticks[1..]|
      ensures w.ticks[1..][i] != w.ticks[0]
    {
      assert w.ticks[1..][i] == w.ticks[i + 1];
    }
  }

  /** The `child.signal(error)` calls zone `from` makes, in the order given. */
  function SignalsTo(from: Id, order: seq<Id>, e: Value): (log: seq<Signal>)
    ensures |log| == |order|
    ensures forall i :: 0 <= i < |log| ==> log[i] == Signal(from, order[i], e)
  {
    seq(|order|, i requires 0 <= i < |order| => Signal(from, order[i], e))
  }

  /** No id occurs twice. */
  ghost predicate Distinct(s: seq<Id>) {
    forall i, j :: 0 <= i < j < |s| ==> s[i] != s[j]
  }

  /** Zone `id` records its error in `sentSignals` for every pending child
      and signals each of them, in the order `order`. */
  function Broadcast(w: World, id: Id, order: seq<Id>): (w': World)
    requires id in w.zones
    ensures id in w'.zones && w'.zones == w.zones[id := w'.zones[id]]
    ensures var z := w.zones[id]; var z' := w'.zones[id];
      && z' == z.(sentSignals := z.sentSignals + (map c | c in Pending(z) :: z.error))
      && Pending(z') == {}
    ensures w'.signals == w.signals + SignalsTo(id, order, w.zones[id].error)
    ensures w'.(zones := w.zones, signals := w.signals) == w
  {
    var z := w.zones[id];
    var z' := z.(sentSignals := z.sentSignals + (map c | c in Pending(z) :: z.error));
    w.(zones := w.zones[id := z'], signals := w.signals + SignalsTo(id, order, z.error))
  }

  /** Recording the zone's error for every pending child keeps the arena
      valid. */
  lemma MarkSent(w: World, id: Id)
    requires Valid(w) && id in w.zones
    ensures var z := w.zones[id];
      var z' := z.(sentSignals := z.sentSignals + (map c | c in Pending(z) :: z.error));
      && Put(w, z').zones == w.zones[id := z']
      && Valid(Put(w, z')) && Extends(w, Put(w, z')) && Quiet(w, Put(w, z'), {})
  {
    var z := w.zones[id];
    var z' := z.(sentSignals := z.sentSignals + (map c | c in Pending(z) :: z.error));
    assert ZoneOk(w, id);
    assert Replaceable(w, z') by {
      forall i | 0 <= i < |z'.callbackQueue|
        ensures TaskOk(w, z'.callbackQueue[i])
      {
        assert z'.callbackQueue[i] == z.callbackQueue[i];
      }
    }
    PutValid(w, z');
  }

  lemma BroadcastValid(w: World, id: Id, order: seq<Id>)
    requires Valid(w) && id in w.zones
    requires Distinct(order) && forall i :: 0 <= i < |order| ==> order[i] in Pending(w.zones[id])
    ensures Valid(Broadcast(w, id, order)) && Extends(w, Broadcast(w, id, order))
    ensures Quiet(w, Broadcast(w, id, order), {})
  {
    var z := w.zones[id];
    var z' := z.(sentSignals := z.sentSignals + (map c | c in Pending(z) :: z.error));
    MarkSent(w, id);
    var w1 := Put(w, z');
    var log := SignalsTo(id, order, z.error);
    assert w1.zones == w.zones[id := z'];
    assert Broadcast(w, id, order) == w1.(signals := w1.signals + log);
    forall k | 0 <= k < |log|
      ensures log[k].from in w1.zones && log[k].to in w1.zones[log[k].from].sentSignals
      ensures w1.zones[log[k].from].sentSignals[log[k].to] == log[k].error
      ensures forall i :: 0 <= i < |w1.signals| ==> (w1.signals[i].from, w1.signals[i].to) != (log[k].from, log[k].to)
    {
      assert log[k] == Signal(id, order[k], z.error);
      forall i | 0 <= i < |w1.signals|
        ensures (w1.signals[i].from, w1.signals[i].to) != (log[k].from, log[k].to)
      {
        var s := w.signals[i];
        assert s.to in w.zones[s.from].sentSignals;
      }
    }
    forall k, l | 0 <= k < l < |log|
      ensures (log[k].from, log[k].to) != (log[l].from, log[l].to)
    {
      assert log[k] == Signal(id, order[k], z.error);
      assert log[l] == Signal(id, order[l], z.error);
    }
    AppendSignalsOk(w1, log);
  }

  /** Appending calls to the signal log keeps it consistent when each is
      recorded in its sender and none repeats an earlier one. */
  lemma AppendSignalsOk(w: World, log: seq<Signal>)
    requires Valid(w)
    requires forall k :: 0 <= k < |log| ==>
      && log[k].from in w.zones && log[k].to in w.zones[log[k].from].sentSignals
      && w.zones[log[k].from].sentSignals[log[k].to] == log[k].error
      && forall i :: 0 <= i < |w.signals| ==> (w.signals[i].from, w.signals[i].to) != (log[k].from, log[k].to)
    requires forall k, l :: 0 <= k < l < |log| ==> (log[k].from, log[k].to) != (log[l].from, log[l].to)
    ensures Valid(w.(signals := w.signals + log)) && Extends(w, w.(signals := w.signals + log))
    ensures Quiet(w, w.(signals := w.signals + log), {})
  {
    var w' := w.(signals := w.signals + log);
    ZonesOkTransfer(w, w');
    forall i | 0 <= i < |w'.signals|
      ensures w'.signals[i].from in w'.zones && w'.signals[i].to in w'.zones[w'.signals[i].from].sentSignals
      ensures w'.zones[w'.signals[i].from].sentSignals[w'.signals[i].to] == w'.signals[i].error
    {
      if i >= |w.signals| {
        assert w'.signals[i] == log[i - |w.signals|];
      }
    }
    forall i, j | 0 <= i < j < |w'.signals|
      ensures (w'.signals[i].from, w'.signals[i].to) != (w'.signals[j].from, w'.signals[j].to)
    {
      if j >= |w.signals| {
        assert w'.signals[j] == log[j - |w.signals|];
        if i >= |w.signals| {
          assert w'.signals[i] == log[i - |w.signals|];
        }
      }
    }
  }

  /** Record a completion-callback call. */
  lemma DeliveryAppend(w: World, d: Delivery)
    requires Valid(w)
    ensures Valid(w.(deliveries := w.deliveries + [d])) && Extends(w, w.(deliveries := w.deliveries + [d]))
    ensures Quiet(w, w.(deliveries := w.deliveries + [d]), {})
  {
    ZonesOkTransfer(w, w.(deliveries := w.deliveries + [d]));
  }

  /** The conditions under which a fresh record can join the arena. */
  ghost predicate Insertable(w: World, z: Zone) {
    && z.id !in w.zones
    && z.id < w.nextUid
    && Wf(z)
    && (z.isRoot <==> z.parent.None?)
    && (z.parent.Some? ==> z.parent.value in w.zones && z.parent.value < z.id)
    && z.root in w.zones && w.zones[z.root].isRoot
    && (z.parent.Some? ==> z.root == w.zones[z.parent.value].root)
    && !z.isRoot && !z.scheduled && z.enterCount == 0
    && z.callbackQueue == []
  }

  lemma InsertValid(w: World, z: Zone)
    requires Valid(w) && Insertable(w, z)
    ensures Valid(Put(w, z)) && Extends(w, Put(w, z)) && Quiet(w, Put(w, z), {})
  {
    InsertZonesOk(w, z);
    InsertTicksOk(w, z);
    InsertSignalsOk(w, z);
  }

  lemma InsertZonesOk(w: World, z: Zone)
    requires forall id {:trigger ZoneOk(w, id)} :: id in w.zones ==> ZoneOk(w, id)
    requires Insertable(w, z)
    ensures forall id {:trigger ZoneOk(Put(w, z), id)} :: id in Put(w, z).zones ==> ZoneOk(Put(w, z), id)
  {
    var w' := Put(w, z);
    forall id | id in w'.zones
      ensures ZoneOk(w', id)
    {
      if id != z.id {
        assert ZoneOk(w, id);
        ZoneOkGrows(w, w', id);
      }
    }
  }

  lemma InsertTicksOk(w: World, z: Zone)
    requires TicksOk(w) && z.id !in w.zones
    ensures TicksOk(Put(w, z))
  {
  }

  lemma InsertSignalsOk(w: World, z: Zone)
    requires SignalsOk(w) && z.id !in w.zones
    ensures SignalsOk(Put(w, z))
  {
    var w' := Put(w, z);
    forall i | 0 <= i < |w'.signals|
      ensures w'.signals[i].to in w'.zones[w'.signals[i].from].sentSignals
    {
      var s := w.signals[i];
      assert s.to in w.zones[s.from].sentSignals;
    }
  }

  /** Composing two steps. */
  lemma Chain(w1: World, w2: World, w3: World, ex1: set<Id>, ex2: set<Id>)
    requires Extends(w1, w2) && Extends(w2, w3)
    requires Quiet(w1, w2, ex1) && Quiet(w2, w3, ex2)
    ensures Extends(w1, w3) && Quiet(w1, w3, ex1 + ex2)
  {
    forall id | id in w1.zones
      ensures Kept(w1.zones[id], w3.zones[id])
    {
      assert Kept(w1.zones[id], w2.zones[id]) && Kept(w2.zones[id], w3.zones[id]);
    }
    forall id | id in w1.zones && id !in ex1 + ex2
      ensures id in w3.zones && Idle(w1.zones[id], w3.zones[id])
    {
      assert Idle(w1.zones[id], w2.zones[id]) && Idle(w2.zones[id], w3.zones[id]);
    }
  }

  /** `Extends` is transitive. */
  lemma ExtendsTrans(w1: World, w2: World, w3: World)
    requires Extends(w1, w2) && Extends(w2, w3)
    ensures Extends(w1, w3)
  {
    forall id | id in w1.zones
      ensures Kept(w1.zones[id], w3.zones[id])
    {
      assert Kept(w1.zones[id], w2.zones[id]) && Kept(w2.zones[id], w3.zones[id]);
    }
  }

  /** `Chain` for two steps with the same exemptions. */
  lemma ChainSame(w1: World, w2: World, w3: World, ex: set<Id>)
    requires Extends(w1, w2) && Extends(w2, w3)
    requires Quiet(w1, w2, ex) && Quiet(w2, w3, ex)
    ensures Extends(w1, w3) && Quiet(w1, w3, ex)
  {
    Chain(w1, w2, w3, ex, ex);
    assert ex + ex == ex;
  }

  /** The next id is not in use. */
  lemma FreshId(w: World)
    requires Valid(w)
    ensures w.nextUid !in w.zones
  {
    forall k | k in w.zones
      ensures k < w.nextUid
    {
      assert ZoneOk(w, k);
    }
  }

  /** Exempting zones that did not exist yet exempts nothing. */
  lemma QuietFresh(w1: World, w2: World, ex: set<Id>)
    requires Quiet(w1, w2, ex) && forall id :: id in ex ==> id !in w1.zones
    ensures Quiet(w1, w2, {})
  {
  }
}

=== FILE: engine.dfy ===
/** The non-recursive closures of the `Zone` constructor that act on the
    process state: `schedule`, `throw`, `return`, `_register`, the catch
    clause of `invoke`, and the broadcast step of `flush`. */
module Engine {
  import opened Values
  import opened Program
  import opened ZoneRecord
  import opened Arena

  /** `throwIfError(error)`: throw the value only when it is truthy. */
  function ThrowIfError(e: Value): Status
  {
    if Truthy(e) then Raised(e) else Ok
  }

  /** Store the outcome of a one-zone operation, or throw its usage error. */
  function Commit(w: World, id: Id, r: Result<Zone>): (s: Step)
    requires Valid(w) && id in w.zones
    requires r.Success? ==> r.value.id == id && Replaceable(w, r.value)
    requires r.Success? ==> Idle(w.zones[id], r.value)
    ensures Valid(s.w) && Extends(w, s.w) && Quiet(w, s.w, {})
    ensures r.Failure? ==> s == Step(w, Raised(r.error))
    ensures r.Success? ==> s == Step(Put(w, r.value), Ok)
  {
    match r
    case Failure(e) => Step(w, Raised(e))
    case Success(z) => PutValid(w, z); Step(Put(w, z), Ok)
  }

  /** The task list `schedule` appends. */
  function Queued(task: Option<Task>): seq<Task> {
    if task.Some? then [task.value] else []
  }

  /** The record change of `schedule` on an open zone: the task joins the
      back of the queue, and an idle zone becomes scheduled. */
  function Enqueue(w: World, id: Id, task: Option<Task>): (w': World)
    requires Valid(w) && id in w.zones && !w.zones[id].closed
    requires task.Some? ==> TaskOk(w, task.value)
    ensures Valid(w') && Extends(w, w') && Quiet(w, w', {})
    ensures var z := w.zones[id];
      w'.zones[id] == z.(callbackQueue := z.callbackQueue + Queued(task), scheduled := z.scheduled || z.enterCount == 0)
    ensures w'.zones == w.zones[id := w'.zones[id]]
    ensures w'.(zones := w.zones) == w
  {
    var z := w.zones[id];
    var q := z.callbackQueue + Queued(task);
    var z' := z.(callbackQueue := q, scheduled := z.scheduled || z.enterCount == 0);
    assert ZoneOk(w, id);
    assert forall i :: 0 <= i < |q| ==> TaskOk(w, q[i]) by {
      forall i | 0 <= i < |q|
        ensures TaskOk(w, q[i])
      {
        if i < |z.callbackQueue| {
          assert q[i] == z.callbackQueue[i];
        }
      }
    }
    assert id in w.ticks ==> z.scheduled && z.enterCount == 0;
    PutValid(w, z');
    Put(w, z')
  }

  /** `schedule(function_)`: refuses a closed zone; otherwise queues the
      task and, when the zone is neither scheduled nor running, marks it
      scheduled and defers one `enter` to the host queue. */
  function Schedule(w: World, id: Id, task: Option<Task>): (r: Step)
    requires Valid(w) && id in w.zones
    requires task.Some? ==> TaskOk(w, task.value)
    ensures Valid(r.w) && Extends(w, r.w) && Quiet(w, r.w, {})
    ensures w.zones[id].closed ==> r == Step(w, Raised(ClosedError))
    ensures !w.zones[id].closed ==> r.status.Ok?
    ensures var z := w.zones[id]; !z.closed ==>
      r.w.zones[id] == z.(callbackQueue := z.callbackQueue + Queued(task), scheduled := z.scheduled || z.enterCount == 0)
    ensures var z := w.zones[id]; !z.closed ==>
      r.w.ticks == w.ticks + (if !z.scheduled && z.enterCount == 0 then [id] else [])
    ensures r.w.zones == w.zones[id := r.w.zones[id]]
    ensures r.w.ambient == w.ambient && r.w.nextUid == w.nextUid
    ensures r.w.signals == w.signals && r.w.deliveries == w.deliveries
  {
    var z := w.zones[id];
    if z.closed then Step(w, Raised(ClosedError))
    else
      var w1 := Enqueue(w, id, task);
      if !z.scheduled && z.enterCount == 0 then
        UnscheduledNotTicked(w, id);
        TickAppend(w1, id);
        var w2 := w1.(ticks := w1.ticks + [id]);
        Chain(w, w1, w2, {}, {});
        Step(w2, Ok)
      else
        Step(w1, Ok)
  }

  /** Two `schedule` calls on an open zone queue their tasks in call order
      and request at most one `enter` between them. */
  lemma ScheduleTwice(w: World, id: Id, t1: Option<Task>, t2: Option<Task>)
    requires Valid(w) && id in w.zones && !w.zones[id].closed
    requires t1.Some? ==> TaskOk(w, t1.value)
    requires t2.Some? ==> TaskOk(w, t2.value)
    ensures var r1 := Schedule(w, id, t1);
      && (t2.Some? ==> TaskOk(r1.w, t2.value))
      && var r2 := Schedule(r1.w, id, t2);
      && r2.status.Ok?
      && r2.w.zones[id].callbackQueue == w.zones[id].callbackQueue + Queued(t1) + Queued(t2)
      && r2.w.ticks == r1.w.ticks
      && |r2.w.ticks| <= |w.ticks| + 1
  {
  }

  /** A record that differs from the stored one only in its outcome. */
  ghost predicate OutcomeOnly(w: World, z': Zone) {
    && z'.id in w.zones && Wf(z')
    && var o := w.zones[z'.id]; z'.(result := o.result, error := o.error) == o
  }

  /** Store a zone's new outcome, then `self.schedule()`: the common tail
      of `throw` and `return`. */
  function StoreOutcome(w: World, z': Zone): (r: Step)
    requires Valid(w) && OutcomeOnly(w, z')
    ensures Valid(r.w) && Extends(w, r.w) && Quiet(w, r.w, {})
    ensures var z := w.zones[z'.id]; !z.closed ==>
      && r.status.Ok?
      && r.w.zones[z'.id] == z'.(scheduled := z.scheduled || z.enterCount == 0)
      && r.w.ticks == w.ticks + (if !z.scheduled && z.enterCount == 0 then [z'.id] else [])
    ensures w.zones[z'.id].closed ==> r == Step(Put(w, z'), Raised(ClosedError))
    ensures r.w.zones == w.zones[z'.id := r.w.zones[z'.id]]
    ensures r.w.ambient == w.ambient
  {
    StoreValid(w, z');
    StoreEffect(w, z');
    Schedule(Put(w, z'), z'.id, None)
  }

  lemma StoreValid(w: World, z': Zone)
    requires Valid(w) && OutcomeOnly(w, z')
    ensures Valid(Put(w, z')) && z'.id in Put(w, z').zones
    ensures var r := Schedule(Put(w, z'), z'.id, None);
      Valid(r.w) && Extends(w, r.w) && Quiet(w, r.w, {})
  {
    Touch(w, z');
    var w1 := Put(w, z');
    var r := Schedule(w1, z'.id, None);
    Chain(w, w1, r.w, {}, {});
  }

  lemma StoreEffect(w: World, z': Zone)
    requires Valid(w) && OutcomeOnly(w, z')
    ensures Valid(Put(w, z')) && z'.id in Put(w, z').zones
    ensures var r := Schedule(Put(w, z'), z'.id, None);
      && var z := w.zones[z'.id];
      && (!z.closed ==>
            && r.status.Ok?
            && r.w.zones[z'.id] == z'.(scheduled := z.scheduled || z.enterCount == 0)
            && r.w.ticks == w.ticks + (if !z.scheduled && z.enterCount == 0 then [z'.id] else []))
      && (z.closed ==> r == Step(Put(w, z'), Raised(ClosedError)))
      && r.w.zones == w.zones[z'.id := r.w.zones[z'.id]]
      && r.w.ambient == w.ambient
  {
    var id := z'.id;
    Touch(w, z');
    var w1 := Put(w, z');
    assert w1.zones[id] == z' && w1.ticks == w.ticks && w1.ambient == w.ambient;
    var r := Schedule(w1, id, None);
    assert w1.zones[id := r.w.zones[id]] == w.zones[id := r.w.zones[id]];
  }

  /** `throw(error_)`: the first truthy error wins; otherwise the error
      replaces any result and the zone is scheduled. */
  function ThrowOn(w: World, id: Id, e: Value): (r: Step)
    requires Valid(w) && id in w.zones
    ensures Valid(r.w) && Extends(w, r.w) && Quiet(w, r.w, {})
    ensures Truthy(w.zones[id].error) ==> r == Step(w, Ok)
    ensures !Truthy(w.zones[id].error) ==> r.w.zones[id].error == e && r.w.zones[id].result.None?
    ensures r.status.Raised? <==> !Truthy(w.zones[id].error) && w.zones[id].closed
    ensures r.status.Raised? ==> r.status.thrown == ClosedError
    ensures !r.status.OutOfFuel?
    ensures var z := w.zones[id]; !Truthy(z.error) && !z.closed ==>
      && r.w.zones[id] == RecordError(z, e).(scheduled := z.scheduled || z.enterCount == 0)
      && r.w.ticks == w.ticks + (if !z.scheduled && z.enterCount == 0 then [id] else [])
    ensures var z := w.zones[id]; !Truthy(z.error) && z.closed ==>
      r.w.zones[id] == RecordError(z, e) && r.w.ticks == w.ticks
    ensures r.w.zones == w.zones[id := r.w.zones[id]]
    ensures r.w.ambient == w.ambient
  {
    var z := w.zones[id];
    assert ZoneOk(w, id);
    if Truthy(z.error) then Step(w, Ok) else StoreOutcome(w, RecordError(z, e))
  }

  /** `return(...values)`: ignored once the zone failed; a second result is
      itself a failure; otherwise the values become the result and the
      zone is scheduled. */
  function ReturnOn(w: World, id: Id, values: seq<Value>): (r: Step)
    requires Valid(w) && id in w.zones
    ensures Valid(r.w) && Extends(w, r.w) && Quiet(w, r.w, {})
    ensures Truthy(w.zones[id].error) ==> r == Step(w, Ok)
    ensures !Truthy(w.zones[id].error) && w.zones[id].result.Some? ==>
      && r == ThrowOn(w, id, ResultAlreadySet)
      && r.w.zones[id].error == ResultAlreadySet && r.w.zones[id].result.None?
    ensures var z := w.zones[id]; !Truthy(z.error) && z.result.None? && !z.closed ==>
      && r.w.zones[id] == RecordResult(z, values).(scheduled := z.scheduled || z.enterCount == 0)
      && r.w.ticks == w.ticks + (if !z.scheduled && z.enterCount == 0 then [id] else [])
    ensures var z := w.zones[id]; !Truthy(z.error) && z.result.None? && z.closed ==>
      r.w.zones[id] == RecordResult(z, values) && r.w.ticks == w.ticks
    ensures r.status.Raised? <==> !Truthy(w.zones[id].error) && w.zones[id].closed
    ensures r.status.Raised? ==> r.status.thrown == ClosedError
    ensures !r.status.OutOfFuel?
    ensures r.w.zones == w.zones[id := r.w.zones[id]]
    ensures r.w.ambient == w.ambient
  {
    var z := w.zones[id];
    if Truthy(z.error) then Step(w, Ok)
    else if z.result.Some? then ThrowOn(w, id, ResultAlreadySet)
    else
      assert ZoneOk(w, id);
      StoreOutcome(w, RecordResult(z, values))
  }

  /** The values that can escape `invoke`: the usage error of a closed zone,
      which its `throw` raises, and the `TypeError` of the catch clause's
      `e.stack` when the caught value is `undefined` or `null`. */
  predicate Escapes(e: Value) {
    e == ClosedError || e == NullStack
  }

  /** The catch clause of `invoke`: log the caught value and its `stack`,
      then hand it to the zone's `throw`. Reading `stack` of `undefined` or
      `null` throws, so such a value never reaches `throw` and a `TypeError`
      leaves the catch clause instead. */
  function CatchOn(w: World, id: Id, e: Value): (r: Step)
    requires Valid(w) && id in w.zones
    ensures Valid(r.w) && Extends(w, r.w) && Quiet(w, r.w, {})
    ensures IsNullish(e) ==> r == Step(w, Raised(NullStack))
    ensures !IsNullish(e) && Truthy(w.zones[id].error) ==> r == Step(w, Ok)
    ensures !IsNullish(e) && !Truthy(w.zones[id].error) ==>
      r.w.zones[id].error == e && r.w.zones[id].result.None?
    ensures r.status.Raised? ==> Escapes(r.status.thrown)
    ensures r.status.Raised? && r.status.thrown == ClosedError ==> r.w.zones[id].closed
    ensures !r.status.OutOfFuel?
    ensures r.w.ambient == w.ambient
  {
    if IsNullish(e) then Step(w, Raised(NullStack)) else ThrowOn(w, id, e)
  }

  /** Apply one of the child-bookkeeping closures (`_unregister`, `_ref`,
      `_unref`, `setCallback`) to zone `id`, throwing its usage error. */
  function Bookkeep(w: World, id: Id, r: Result<Zone>): (s: Step)
    requires Valid(w) && id in w.zones
    requires r.Success? ==> Wf(w.zones[id]) ==> Wf(r.value)
    requires r.Success? ==> var o := w.zones[id];
      r.value.(children := o.children, refs := o.refs, childCount := o.childCount, refCount := o.refCount,
               result := o.result, error := o.error, callback := o.callback) == o
    ensures Valid(s.w) && Extends(w, s.w) && Quiet(w, s.w, {})
    ensures r.Failure? ==> s == Step(w, Raised(r.error))
    ensures r.Success? ==> s == Step(Put(w, r.value), Ok)
  {
    assert ZoneOk(w, id);
    if r.Success? then Touch(w, r.value); Commit(w, id, r) else Commit(w, id, r)
  }

  /** `_register(id, child, ref)`: a missing id is drawn from `uid()`, a
      nullish `ref` means live. */
  function RegisterOn(w: World, id: Id, given: Option<Id>, ref: Value): (r: Step)
    requires Valid(w) && id in w.zones
    ensures Valid(r.w) && Extends(w, r.w) && Quiet(w, r.w, {})
    ensures var c := given.GetOr(w.nextUid);
      && (r.status.Raised? <==> c in w.zones[id].children)
      && (r.status.Raised? ==> r.status.thrown == AlreadyRegistered)
      && (r.status.Ok? ==> r.w.zones[id].children == w.zones[id].children + {c})
      && (r.status.Ok? ==> (c in r.w.zones[id].refs <==> IsNullish(ref) || Truthy(ref)))
    ensures !r.status.OutOfFuel?
    ensures r.w.nextUid == w.nextUid + (if given.None? then 1 else 0)
    ensures r.w.ticks == w.ticks && r.w.ambient == w.ambient
    ensures r.w.zones == w.zones[id := r.w.zones[id]]
  {
    var c := given.GetOr(w.nextUid);
    BumpUid(w);
    var w1 := if given.None? then w.(nextUid := w.nextUid + 1) else w;
    assert ZoneOk(w1, id);
    var res := RegisterChild(w1.zones[id], c, IsNullish(ref) || Truthy(ref));
    var r := Bookkeep(w1, id, res);
    assert res.Success? ==> res.value.id == id && r.w.zones[id] == res.value;
    Chain(w, w1, r.w, {}, {});
    r
  }

  /** `m` is the smallest element of `s`. */
  predicate IsLeast(s: set<Id>, m: Id) {
    m in s && forall x :: x in s ==> m <= x
  }

  /** The smallest id of a non-empty set. */
  function MinOf(s: set<Id>): (m: Id)
    requires s != {}
    ensures m in s && forall x :: x in s ==> m <= x
  {
    MinExists(s);
    var m :| IsLeast(s, m);
    m
  }

  lemma {:induction false} MinExists(s: set<Id>)
    requires s != {}
    ensures exists m :: IsLeast(s, m)
    decreases |s|
  {
    var x :| x in s;
    if s == {x} {
      assert IsLeast(s, x);
    } else {
      MinExists(s - {x});
      var m :| IsLeast(s - {x}, m);
      var least := if x < m then x else m;
      forall y | y in s
        ensures least <= y
      {
        if y != x {
          assert y in s - {x};
        }
      }
      assert IsLeast(s, least);
    }
  }

  /** Each element is smaller than the next. */
  predicate Increasing(r: seq<Id>) {
    forall i, j :: 0 <= i < j < |r| ==> r[i] < r[j]
  }

  /** `r` lists exactly the elements of `s`. */
  predicate Lists(r: seq<Id>, s: set<Id>) {
    && (forall i :: 0 <= i < |r| ==> r[i] in s)
    && (forall x :: x in s ==> x in r)
  }

  /** The ids of a set in the order `for (var id in children)` visits
      integer keys: ascending. */
  function Ascending(s: set<Id>): (r: seq<Id>)
    ensures |r| == |s| && Lists(r, s) && Increasing(r)
    decreases |s|
  {
    if s == {} then []
    else
      var m := MinOf(s);
      var rest := Ascending(s - {m});
      AscendingCons(s, m, rest);
      [m] + rest
  }

  lemma AscendingCons(s: set<Id>, m: Id, rest: seq<Id>)
    requires IsLeast(s, m)
    requires Lists(rest, s - {m}) && Increasing(rest)
    ensures Lists([m] + rest, s) && Increasing([m] + rest)
  {
    var r := [m] + rest;
    forall i | 0 <= i < |r|
      ensures r[i] in s
    {
      if i > 0 {
        assert r[i] == rest[i - 1];
      }
    }
    forall x | x in s
      ensures x in r
    {
      if x != m {
        assert x in rest;
      }
    }
    forall i, j | 0 <= i < j < |r|
      ensures r[i] < r[j]
    {
      assert r[j] == rest[j - 1] && r[j] in s - {m};
      if i > 0 {
        assert r[i] == rest[i - 1];
      }
    }
  }

  /** The broadcast step of `flush`: every registered child not yet in
      `sentSignals` is recorded there with the zone's error and receives
      `signal(error)`, whose default is a no-op, so only the call is logged.
      The flag is `didSignalAny`. */
  function SignalPass(w: World, id: Id): (r: (World, bool))
    requires Valid(w) && id in w.zones && HasOutcome(w.zones[id])
    ensures Valid(r.0) && Extends(w, r.0) && Quiet(w, r.0, {})
    ensures var z := w.zones[id]; var z' := r.0.zones[id];
      && (r.1 <==> Pending(z) != {})
      && Pending(z') == {}
      && z'.sentSignals == z.sentSignals + (map c | c in Pending(z) :: z.error)
      && z' == z.(sentSignals := z'.sentSignals)
    ensures r.0.zones == w.zones[id := r.0.zones[id]]
    ensures w.signals <= r.0.signals
    ensures BroadcastLog(r.0.signals[|w.signals|..], id, Pending(w.zones[id]), w.zones[id].error)
    ensures r.0.ticks == w.ticks && r.0.ambient == w.ambient && r.0.nextUid == w.nextUid
    ensures r.0.deliveries == w.deliveries
  {
    var z := w.zones[id];
    var p := Pending(z);
    var order := Ascending(p);
    BroadcastValid(w, id, order);
    var w' := Broadcast(w, id, order);
    assert w'.signals[|w.signals|..] == SignalsTo(id, order, z.error);
    AscendingLog(id, p, z.error);
    (w', p != {})
  }

  /** The calls of one broadcast by zone `id` to the children `p` with error
      `e`: one call per child, each from the zone with its error, in
      ascending order of child id. */
  ghost predicate BroadcastLog(log: seq<Signal>, id: Id, p: set<Id>, e: Value) {
    && |log| == |p|
    && (forall i :: 0 <= i < |log| ==> log[i].from == id && log[i].to in p && log[i].error == e)
    && (forall c :: c in p ==> exists i :: 0 <= i < |log| && log[i].to == c)
    && (forall i, j :: 0 <= i < j < |log| ==> log[i].to < log[j].to)
  }

  /** Broadcasting in ascending order produces such a log. */
  lemma AscendingLog(id: Id, p: set<Id>, e: Value)
    ensures BroadcastLog(SignalsTo(id, Ascending(p), e), id, p, e)
  {
    var order := Ascending(p);
    var log := SignalsTo(id, order, e);
    forall i | 0 <= i < |log|
      ensures log[i].from == id && log[i].to in p && log[i].error == e
    {
      assert log[i] == Signal(id, order[i], e);
    }
    forall c | c in p
      ensures exists i :: 0 <= i < |log| && log[i].to == c
    {
      assert c in order;
      var i :| 0 <= i < |order| && order[i] == c;
      assert log[i] == Signal(id, order[i], e);
    }
    forall i, j | 0 <= i < j < |log|
      ensures log[i].to < log[j].to
    {
      assert log[i] == Signal(id, order[i], e);
      assert log[j] == Signal(id, order[j], e);
    }
  }

}

=== FILE: findings.dfy ===
/** `finalize` of a child without a completion callback: as written it
    throws the child's error even when that error is falsy, and as evidently
    intended it throws only a truthy error, like the `throwIfError` helper
    of the same file. */
module Findings {
  import opened Values
  import opened Program
  import opened ZoneRecord
  import opened Arena
  import opened Engine
  import opened Lifecycle

  /** As written: the parent `p` runs the queued `finalize` of its
      callback-less child `c`, whose error is nullish because it returned.
      `throw error` throws `undefined`, the catch clause of the parent's
      `invoke` reads `undefined.stack`, and a `TypeError` escapes the
      parent's `invoke`, and with it the parent's flush. */
  method AsWrittenEscapes(w: World, p: Id, c: Id, fuel: nat) returns (r: Step)
    requires Valid(w) && c in w.zones && w.zones[c].parent == Some(p) && p in w.zones
    requires FinalizeReady(w.zones[c]) && w.zones[c].callback.None? && c in w.zones[p].children
    requires IsNullish(w.zones[c].error) && fuel > 0
    ensures r.status == Raised(NullStack)
    ensures Valid(r.w) && Extends(w, r.w)
  {
    r := Invoke(w, p, Task.Finalize(c), fuel);
  }

  /** A child that returned nothing and has closed: its error is
      `undefined`, so it meets the conditions of `AsWrittenEscapes`. */
  lemma ReturnedChildIsNullish()
    ensures var child := NewZone(2, Some(1), false, 1, None).(result := Some([]), closed := true);
      && FinalizeReady(child) && child.callback.None? && IsNullish(child.error)
  {
  }

  /** As written, for a child whose error is falsy but not nullish: it did
      `this.throw(0)`, say, and the flush then gave it the result `[]`.
      The parent's catch clause hands the `0` to the parent's `throw`, so a
      parent that has not failed loses its result and takes `0` as its
      error. */
  method AsWrittenErasesResult(w: World, p: Id, c: Id, fuel: nat) returns (r: Step)
    requires Valid(w) && c in w.zones && w.zones[c].parent == Some(p) && p in w.zones
    requires FinalizeReady(w.zones[c]) && w.zones[c].callback.None? && c in w.zones[p].children
    requires !IsNullish(w.zones[c].error) && !Truthy(w.zones[c].error) && !Truthy(w.zones[p].error) && fuel > 0
    ensures Valid(r.w) && Extends(w, r.w)
    ensures p in r.w.zones && r.w.zones[p].result.None? && r.w.zones[p].error == w.zones[c].error
  {
    r := Invoke(w, p, Task.Finalize(c), fuel);
  }

  /** A child that threw `0` and was resolved to `[]` meets the conditions
      of `AsWrittenErasesResult`. */
  lemma ThrewZeroChild()
    ensures var child := NewZone(2, Some(1), false, 1, None).(error := Num(0), result := Some([]), closed := true);
      && FinalizeReady(child) && child.callback.None? && !IsNullish(child.error) && !Truthy(child.error)
  {
  }

  /** As intended: the status of `throwIfError(error)`. */
  function FinalizeBare(child: Zone): (s: Status)
    requires FinalizeReady(child) && child.callback.None?
    ensures s.Raised? <==> Truthy(child.error)
  {
    ThrowIfError(child.error)
  }

  /** As intended, finishing a callback-less child leaves its parent as it
      was when the child returned, passes a failed child's error on unless
      the parent already failed (the first error still wins), never lets
      the catch clause's `TypeError` escape, and never takes an outcome
      away from the parent. */
  lemma FinalizeBareKeepsParent(w: World, p: Id, child: Zone)
    requires Valid(w) && p in w.zones
    requires FinalizeReady(child) && child.callback.None?
    ensures var s := FinalizeBare(child);
      var r := if s.Raised? then CatchOn(w, p, s.thrown) else Step(w, Ok);
      && (!Truthy(child.error) ==> r == Step(w, Ok))
      && (Truthy(child.error) ==>
            r.w.zones[p].error == (if Truthy(w.zones[p].error) then w.zones[p].error else child.error))
      && (r.status.Raised? ==> r.status.thrown == ClosedError)
      && (HasOutcome(w.zones[p]) ==> HasOutcome(r.w.zones[p]))
  {
  }

  /** The two versions differ exactly for a child without a truthy error:
      one that returned, or one that threw a falsy value. */
  lemma AsWrittenDiffers(child: Zone)
    requires FinalizeReady(child) && child.callback.None?
    ensures Raised(child.error) != FinalizeBare(child) <==> !Truthy(child.error)
    ensures !Truthy(child.error) ==> child.result.Some?
  {
  }
}

=== FILE: host.dfy ===
/** The outside of the engine: the `enter` closure that a pending
    `process.nextTick` runs, the event loop that serves those ticks in order,
    and the construction of the root zone when the module loads. */
module Host {
  import opened Values
  import opened Program
  import opened ZoneRecord
  import opened Arena
  import opened Engine
  import opened Lifecycle

  /** The asserts `enter` makes on entry. */
  predicate EnterReady(z: Zone) {
    !z.closed && z.scheduled && z.enterCount == 0
  }

  /** `enter()`: assert the zone is open, scheduled and idle, enter it with
      `scheduled` cleared, make it the ambient zone, flush it, then restore
      the ambient zone and leave. */
  method Enter(w: World, id: Id, fuel: nat) returns (r: Step)
    requires Valid(w) && id in w.zones && id !in w.ticks
    ensures Valid(r.w) && Extends(w, r.w) && Quiet(w, r.w, {id})
    ensures !EnterReady(w.zones[id]) ==> r == Step(w, Raised(AssertionFailed))
    ensures EnterReady(w.zones[id]) && r.status.Raised? ==> Escapes(r.status.thrown)
    ensures EnterReady(w.zones[id]) && r.status.Ok? ==>
      && r.w.ambient == w.ambient
      && r.w.zones[id].enterCount == 0
      && Settled(w.zones[id].closed, r.w, id)
  {
    var z := w.zones[id];
    if !EnterReady(z) {
      return Step(w, Raised(AssertionFailed));
    }
    var w1 := Begin(w, id);
    var w2 := Unschedule(w1, id);
    Chain(w, w1, w2, {id}, {});
    r := Flush(w2, id, fuel);
    ChainSame(w, w2, r.w, {id});
    if r.IsFailure() {
      return;
    }
    var w3 := r.w;
    var w4 := End(w3, id, w.ambient);
    ChainSame(w, w3, w4, {id});
    SettledKept(w2.zones[id].closed, w3, w4, id);
    return Step(w4, Ok);
  }

  /** One turn of the event loop: take the oldest pending `enter` and run it.
      The invariant on pending ticks makes its asserts hold; it holds
      because only freshly constructed zones are ever called, never one with
      a pending `enter`. So only what can escape `invoke` can escape the
      tick. */
  method RunTick(w: World, fuel: nat) returns (r: Step)
    requires Valid(w) && w.ticks != []
    ensures Valid(r.w) && Extends(w, r.w) && Quiet(w, r.w, {w.ticks[0]})
    ensures r.status.Raised? ==> Escapes(r.status.thrown)
    ensures r.status.Ok? ==> Settled(w.zones[w.ticks[0]].closed, r.w, w.ticks[0])
  {
    var id := w.ticks[0];
    TickPop(w);
    var w1 := w.(ticks := w.ticks[1..]);
    assert EnterReady(w1.zones[id]);
    r := Enter(w1, id, fuel);
    Chain(w, w1, r.w, {}, {id});
  }

  /** The event loop: serve pending ticks oldest first until none is left,
      an uncaught error ends the process, or `turns` runs out. */
  method RunLoop(w: World, turns: nat, fuel: nat) returns (r: Step)
    requires Valid(w)
    ensures Valid(r.w) && Extends(w, r.w)
    ensures r.status.Ok? ==> r.w.ticks == []
    ensures r.status.Raised? ==> Escapes(r.status.thrown)
    ensures w.ticks == [] ==> r == Step(w, Ok)
  {
    var cur := w;
    var left := turns;
    while cur.ticks != []
      invariant Valid(cur) && Extends(w, cur)
      invariant w.ticks == [] ==> cur == w
      decreases left
    {
      if left == 0 {
        return Step(cur, OutOfFuel);
      }
      var s := RunTick(cur, fuel);
      ExtendsTrans(w, cur, s.w);
      if s.IsFailure() {
        return s;
      }
      cur := s.w;
      left := left - 1;
    }
    return Step(cur, Ok);
  }

  /** The arena before anything exists. */
  const Empty := World(map[], 0, None, [], [], [])

  /** Module load: `new Zone(noop)` with `isConstructingRoot` set. The root
      has no parent, is its own root, registers with nobody, is called with
      an empty body, and then becomes the ambient zone. */
  method Boot(fuel: nat) returns (r: Step)
    ensures Valid(r.w) && Extends(Empty, r.w)
    ensures Empty.nextUid in r.w.zones
    ensures var z := r.w.zones[Empty.nextUid];
      && z.isRoot && z.parent.None? && z.root == Empty.nextUid && !z.closed
    ensures r.status.Ok? ==> r.w.ambient == Some(Empty.nextUid)
    ensures r.status.Ok? ==> r.w.zones[Empty.nextUid].callbackQueue == []
  {
    var id := Empty.nextUid;
    var z := NewZone(id, None, true, id, None);
    var w1 := Empty.(zones := map[id := z], nextUid := id + 1);
    assert ZoneOk(w1, id);
    assert Valid(w1);
    r := Call(w1, id, [], fuel);
    assert ZoneOk(r.w, id);
    if r.IsFailure() {
      return;
    }
    WithAmbient(r.w, Some(id));
    r := Step(r.w.(ambient := Some(id)), Ok);
  }
}

=== FILE: lifecycle.dfy ===
/** The mutually recursive heart of the engine: running user code inside a
    zone (`invoke`, `call`), draining and settling a zone (`flush`),
    delivering a finished child's outcome to its parent (`finalize`), and
    constructing a child zone, which calls into the new zone at once. */
module Lifecycle {
  import opened Values
  import opened Program
  import opened ZoneRecord
  import opened Arena
  import opened Engine

  /** The parent of zone `id` has `finalize` of `id` in its queue. */
  ghost predicate FinalizeQueued(w: World, id: Id) {
    && id in w.zones
    && w.zones[id].parent.Some?
    && w.zones[id].parent.value in w.zones
    && Task.Finalize(id) in w.zones[w.zones[id].parent.value].callbackQueue
  }

  /** Set the entry count of a zone that has no pending `enter`. */
  method Recount(w: World, id: Id, n: nat) returns (w': World)
    requires Valid(w) && id in w.zones && id !in w.ticks
    ensures Valid(w') && Extends(w, w') && Quiet(w, w', {id})
    ensures w'.zones[id] == w.zones[id].(enterCount := n)
    ensures w'.zones == w.zones[id := w'.zones[id]]
    ensures w'.(zones := w.zones) == w
  {
    assert ZoneOk(w, id);
    var z1 := w.zones[id].(enterCount := n);
    PutValid(w, z1);
    w' := Put(w, z1);
  }

  /** The entry half of `call` and `enter`: `enterCount++` and `zone = self`. */
  method Begin(w: World, id: Id) returns (w': World)
    requires Valid(w) && id in w.zones && id !in w.ticks
    ensures Valid(w') && Extends(w, w') && Quiet(w, w', {id})
    ensures w'.zones[id] == w.zones[id].(enterCount := w.zones[id].enterCount + 1)
    ensures w'.zones == w.zones[id := w'.zones[id]]
    ensures w'.ambient == Some(id) && w'.ticks == w.ticks
    ensures w'.zones[id].enterCount > 0
  {
    assert ZoneOk(w, id);
    var w1 := Recount(w, id, w.zones[id].enterCount + 1);
    WithAmbient(w1, Some(id));
    w' := w1.(ambient := Some(id));
    ChainSame(w, w1, w', {id});
  }

  /** The exit half of `call` and `enter`: `zone = previousZone` and
      `enterCount--`. */
  method End(w: World, id: Id, previous: Option<Id>) returns (w': World)
    requires Valid(w) && id in w.zones && w.zones[id].enterCount != 0
    requires previous.Some? ==> previous.value in w.zones
    ensures Valid(w') && Extends(w, w') && Quiet(w, w', {id})
    ensures w'.zones[id] == w.zones[id].(enterCount := w.zones[id].enterCount - 1)
    ensures w'.zones == w.zones[id := w'.zones[id]]
    ensures w'.ambient == previous && w'.ticks == w.ticks
  {
    WithAmbient(w, previous);
    var w1 := w.(ambient := previous);
    assert ZoneOk(w1, id);
    EnteredNotTicked(w1, id);
    w' := Recount(w1, id, w1.zones[id].enterCount - 1);
    ChainSame(w, w1, w', {id});
  }

  /** `scheduled = false` on a zone that is running. */
  method Unschedule(w: World, id: Id) returns (w': World)
    requires Valid(w) && id in w.zones && w.zones[id].enterCount != 0
    ensures Valid(w') && Extends(w, w') && Quiet(w, w', {})
    ensures w'.zones[id] == w.zones[id].(scheduled := false)
    ensures w'.zones == w.zones[id := w'.zones[id]]
    ensures w'.(zones := w.zones) == w
  {
    var z := w.zones[id];
    assert ZoneOk(w, id);
    EnteredNotTicked(w, id);
    PutValid(w, z.(scheduled := false));
    w' := Put(w, z.(scheduled := false));
  }

  /** `closed = true; parent.schedule(finalize)` on a running zone that may
      close. */
  method Close(w: World, id: Id) returns (r: Step)
    requires Valid(w) && id in w.zones && w.zones[id].enterCount != 0 && CloseReady(w.zones[id])
    ensures Valid(r.w) && Extends(w, r.w) && Quiet(w, r.w, {id})
    ensures var z := w.zones[id];
      && z.parent.Some? && z.parent.value in w.zones
      && r.w.zones[id] == z.(closed := true)
      && var p := z.parent.value;
      && (r.status.Raised? <==> w.zones[p].closed)
      && (r.status.Raised? ==> r.status.thrown == ClosedError)
      && !r.status.OutOfFuel?
      && (r.status.Ok? ==> r.w.zones[p].callbackQueue == w.zones[p].callbackQueue + [Task.Finalize(id)])
  {
    var z := w.zones[id];
    assert ZoneOk(w, id);
    EnteredNotTicked(w, id);
    var z1 := z.(closed := true);
    PutValid(w, z1);
    var w1 := Put(w, z1);
    var p := z.parent.value;
    r := Schedule(w1, p, Some(Task.Finalize(id)));
    Chain(w, w1, r.w, {id}, {});
  }

  /** What an outermost `call` or an `enter` leaves behind once its flush
      completed: an empty queue, an outcome unless live children remain,
      every child signalled once there is an outcome, and the zone closed
      exactly when it can close, with its `finalize` queued on the parent.
      `wasClosed` tells whether the zone was closed on entry. */
  ghost predicate Settled(wasClosed: bool, w: World, id: Id)
    requires id in w.zones
  {
    var z := w.zones[id];
    && z.callbackQueue == []
    && !z.scheduled
    && (HasOutcome(z) || z.refCount > 0)
    && (HasOutcome(z) ==> Pending(z) == {})
    && (z.closed <==> wasClosed || CloseReady(z))
    && (z.closed && !wasClosed ==> FinalizeQueued(w, id))
  }

  /** Leaving the zone keeps what the flush settled. */
  lemma SettledKept(wasClosed: bool, w: World, w': World, id: Id)
    requires id in w.zones && id in w'.zones && Settled(wasClosed, w, id)
    requires w'.zones == w.zones[id := w.zones[id].(enterCount := w'.zones[id].enterCount)]
    ensures Settled(wasClosed, w', id)
  {
  }

  /** Binding a completion callback keeps what the flush settled. */
  lemma SettledRebound(wasClosed: bool, w: World, w': World, id: Id)
    requires id in w.zones && id in w'.zones && Settled(wasClosed, w, id)
    requires w'.zones == w.zones[id := w.zones[id].(callback := w'.zones[id].callback)]
    ensures Settled(wasClosed, w', id)
  {
    var z := w.zones[id];
    if z.closed && !wasClosed {
      assert FinalizeQueued(w, id);
      var p := z.parent.value;
      assert p != id by {
        assert Task.Finalize(id) in w.zones[p].callbackQueue;
      }
    }
  }

  /** Run user code in zone `self`, one action at a time; `args` are the
      function's arguments, which only `Rethrow` reads. A thrown value ends
      the run. */
  method RunActions(w: World, self: Id, fn: seq<Action>, args: seq<Value>, fuel: nat) returns (r: Step)
    requires Valid(w) && self in w.zones
    ensures Valid(r.w) && Extends(w, r.w) && Quiet(w, r.w, {})
    ensures fn == [] ==> r == Step(w, Ok)
    ensures fn != [] && fn[0].Raise? ==> r == Step(w, Raised(fn[0].error))
    decreases fuel, 1
  {
    var cur := w;
    for i := 0 to |fn|
      invariant Valid(cur) && Extends(w, cur) && Quiet(w, cur, {})
      invariant i == 0 ==> cur == w
      invariant i > 0 ==> !fn[0].Raise?
    {
      var s := RunAction(cur, self, fn[i], args, fuel);
      Chain(w, cur, s.w, {}, {});
      if s.IsFailure() {
        return s;
      }
      cur := s.w;
    }
    return Step(cur, Ok);
  }

  /** One statement of user code, run with `this` bound to zone `self`. */
  method RunAction(w: World, self: Id, a: Action, args: seq<Value>, fuel: nat) returns (r: Step)
    requires Valid(w) && self in w.zones
    ensures Valid(r.w) && Extends(w, r.w) && Quiet(w, r.w, {})
    ensures a.Raise? ==> r == Step(w, Raised(a.error))
    ensures a.Rethrow? ==> r == Step(w, ThrowIfError(if |args| > 0 then args[0] else Undefined))
    decreases fuel, 0
  {
    assert ZoneOk(w, self);
    var z := w.zones[self];
    match a
    case Return(values) => r := ReturnOn(w, self, values);
    case Fail(e) => r := ThrowOn(w, self, e);
    case Raise(e) => r := Step(w, Raised(e));
    case Rethrow => r := Step(w, ThrowIfError(if |args| > 0 then args[0] else Undefined));
    case Spawn(body, binding) =>
      if fuel == 0 {
        r := Step(w, OutOfFuel);
      } else {
        r := Construct(w, body, binding, fuel - 1);
      }
    case Defer(fn) => r := Schedule(w, self, Some(Run(fn)));
    case Register(given, ref) => r := RegisterOn(w, self, given, ref);
    case Unregister(c) => r := Bookkeep(w, self, UnregisterChild(z, c));
    case Ref(c) => r := Bookkeep(w, self, RefChild(z, c));
    case Unref(c) => r := Bookkeep(w, self, UnrefChild(z, c));
    case SetCallback(fn) => r := Bookkeep(w, self, BindCallback(z, fn));
  }

  /** The first half of `new Zone(body, callback)` in the ambient zone: draw
      an id, refuse a missing ambient zone (`zone.root` of `null`), and
      register the new zone as a live child of the ambient one. */
  method Attach(w: World, binding: Binding) returns (r: Step)
    requires Valid(w)
    ensures Valid(r.w) && Extends(w, r.w) && Quiet(w, r.w, {})
    ensures w.ambient.None? ==> r.status == Raised(NullAmbient)
    ensures r.w.nextUid > w.nextUid
    ensures w.ambient.Some? && r.status.Ok? ==>
      && w.nextUid in r.w.zones
      && w.nextUid !in r.w.ticks
      && r.w.zones[w.nextUid].parent == w.ambient
      && !r.w.zones[w.nextUid].isRoot
      && r.w.zones[w.nextUid].callback == (if binding.AtConstruction? then Some(binding.fn) else None)
      && w.nextUid in r.w.zones[w.ambient.value].children
      && w.nextUid in r.w.zones[w.ambient.value].refs
      && r.w.zones[w.nextUid].enterCount == 0 && !r.w.zones[w.nextUid].closed
  {
    BumpUid(w);
    var id := w.nextUid;
    var w1 := w.(nextUid := w.nextUid + 1);
    if w1.ambient.None? {
      return Step(w1, Raised(NullAmbient));
    }
    var p := w1.ambient.value;
    assert ZoneOk(w1, p);
    var cb := if binding.AtConstruction? then Some(binding.fn) else None;
    var z := NewZone(id, Some(p), false, w1.zones[p].root, cb);
    FreshId(w);
    InsertValid(w1, z);
    var w2 := Put(w1, z);
    Chain(w, w1, w2, {}, {});
    r := RegisterOn(w2, p, Some(id), Bool(true));
    Chain(w, w2, r.w, {}, {});
    if r.IsFailure() {
      return;
    }
    UnscheduledNotTicked(w2, id);
  }

  /** `new Zone(body, callback)`: attach the new zone, then call the body in
      it; being the outermost entry, that call flushes the new zone. An
      `Afterwards` binding then runs `setCallback` on the new zone. */
  method Construct(w: World, body: seq<Action>, binding: Binding, fuel: nat) returns (r: Step)
    requires Valid(w)
    ensures Valid(r.w) && Extends(w, r.w) && Quiet(w, r.w, {})
    ensures w.ambient.None? ==> r.status == Raised(NullAmbient)
    ensures r.w.nextUid > w.nextUid
    ensures w.ambient.Some? && r.status.Ok? ==>
      && w.nextUid in r.w.zones
      && r.w.zones[w.nextUid].parent == w.ambient
      && !r.w.zones[w.nextUid].isRoot
      && r.w.zones[w.nextUid].enterCount == 0
      && Settled(false, r.w, w.nextUid)
    ensures w.ambient.Some? && r.status.Ok? && binding.Afterwards? ==>
      r.w.zones[w.nextUid].callback == Some(binding.fn)
    decreases fuel, 5
  {
    var id := w.nextUid;
    FreshId(w);
    r := Attach(w, binding);
    if r.IsFailure() {
      return;
    }
    var w3 := r.w;
    r := Populate(w3, id, body, binding, fuel);
    Chain(w, w3, r.w, {}, {id});
    QuietFresh(w, r.w, {id});
  }

  /** The second half of the constructor on the attached zone `id`: call
      the body, which as the outermost entry flushes the zone, then bind
      an `Afterwards` callback. */
  method Populate(w: World, id: Id, body: seq<Action>, binding: Binding, fuel: nat) returns (r: Step)
    requires Valid(w) && id in w.zones && id !in w.ticks
    requires w.zones[id].enterCount == 0 && !w.zones[id].closed
    ensures Valid(r.w) && Extends(w, r.w) && Quiet(w, r.w, {id})
    ensures r.w.nextUid >= w.nextUid
    ensures r.status.Ok? ==> r.w.zones[id].enterCount == 0 && Settled(false, r.w, id)
    ensures r.status.Ok? && binding.Afterwards? ==> r.w.zones[id].callback == Some(binding.fn)
    decreases fuel, 4
  {
    r := Call(w, id, body, fuel);
    if r.IsFailure() || !binding.Afterwards? {
      return;
    }
    var w1 := r.w;
    r := BindAfter(w1, id, binding.fn);
    ChainSame(w, w1, r.w, {id});
  }

  /** `new Zone(body).setCallback(fn)`: bind the callback of a zone the
      constructor has just settled. */
  method BindAfter(w: World, id: Id, fn: seq<Action>) returns (r: Step)
    requires Valid(w) && id in w.zones && Settled(false, w, id)
    ensures Valid(r.w) && Extends(w, r.w) && Quiet(w, r.w, {})
    ensures w.zones[id].callback.Some? ==> r == Step(w, Raised(CallbackAlreadySet))
    ensures w.zones[id].callback.None? ==>
      && r.status.Ok?
      && r.w.zones[id] == w.zones[id].(callback := Some(fn))
      && Settled(false, r.w, id)
  {
    assert ZoneOk(w, id);
    var b := BindCallback(w.zones[id], fn);
    r := Bookkeep(w, id, b);
    if r.status.Ok? {
      assert r.w.zones == w.zones[id := b.value];
      SettledRebound(false, w, r.w, id);
    }
  }

  /** `call(fn)`: refuses a closed zone; otherwise enters it, makes it the
      ambient zone, runs `fn` and restores the ambient zone and the entry
      count. A value thrown past `invoke` or `flush` leaves both as they
      were at the throw. */
  method Call(w: World, id: Id, fn: seq<Action>, fuel: nat) returns (r: Step)
    requires Valid(w) && id in w.zones && id !in w.ticks
    ensures Valid(r.w) && Extends(w, r.w) && Quiet(w, r.w, {id})
    ensures w.zones[id].closed ==> r == Step(w, Raised(ClosedError))
    ensures r.status.Raised? ==> Escapes(r.status.thrown)
    ensures r.status.Ok? ==> r.w.ambient == w.ambient && r.w.zones[id].enterCount == w.zones[id].enterCount
    ensures r.status.Ok? && w.zones[id].enterCount == 0 ==> Settled(w.zones[id].closed, r.w, id)
    decreases fuel, 3
  {
    var z := w.zones[id];
    if z.closed {
      return Step(w, Raised(ClosedError));
    }
    if fuel == 0 {
      return Step(w, OutOfFuel);
    }
    var w1 := Begin(w, id);
    r := Entered(w1, id, fn, fuel - 1);
    ChainSame(w, w1, r.w, {id});
    if r.IsFailure() {
      return;
    }
    var w2 := r.w;
    var w3 := End(w2, id, w.ambient);
    ChainSame(w, w2, w3, {id});
    if z.enterCount == 0 {
      SettledKept(z.closed, w2, w3, id);
    }
    return Step(w3, Ok);
  }

  /** The inside of `call`: `invoke(fn)`, then `flush()` when this is the
      outermost entry. */
  method Entered(w: World, id: Id, fn: seq<Action>, fuel: nat) returns (r: Step)
    requires Valid(w) && id in w.zones && w.zones[id].enterCount != 0
    ensures Valid(r.w) && Extends(w, r.w) && Quiet(w, r.w, {id})
    ensures r.w.zones[id].enterCount == w.zones[id].enterCount
    ensures r.status.Raised? ==> Escapes(r.status.thrown)
    ensures r.status.Ok? && w.zones[id].enterCount == 1 ==> Settled(w.zones[id].closed, r.w, id)
    ensures w.zones[id].enterCount != 1 ==> Quiet(w, r.w, {})
    decreases fuel, 3
  {
    r := Invoke(w, id, Run(fn), fuel);
    assert w.zones[id].enterCount == r.w.zones[id].enterCount;
    if r.IsFailure() || r.w.zones[id].enterCount != 1 {
      return;
    }
    var w1 := r.w;
    r := Flush(w1, id, fuel);
    Chain(w, w1, r.w, {}, {id});
  }

  /** A closed child without a completion callback whose `finalize` will
      pass its asserts and its parent's `_unregister`. */
  ghost predicate BareFinish(w: World, c: Id) {
    && c in w.zones
    && FinalizeReady(w.zones[c])
    && w.zones[c].callback.None?
    && w.zones[c].parent.Some?
    && w.zones[c].parent.value in w.zones
    && c in w.zones[w.zones[c].parent.value].children
  }

  /** `invoke(fn)`: run a queued task or a body in zone `self`; a value it
      throws goes through the catch clause, which hands it to `self.throw`
      unless it is nullish. What escapes is the usage error of a closed
      zone or the catch clause's own `TypeError`. */
  method Invoke(w: World, self: Id, task: Task, fuel: nat) returns (r: Step)
    requires Valid(w) && self in w.zones && TaskOk(w, task)
    ensures Valid(r.w) && Extends(w, r.w) && Quiet(w, r.w, {})
    ensures r.status.Raised? ==> Escapes(r.status.thrown)
    ensures r.status.Raised? && r.status.thrown == ClosedError ==> r.w.zones[self].closed
    ensures fuel > 0 && task.Run? && task.fn != [] && task.fn[0].Raise? ==>
      var e := task.fn[0].error;
      && (IsNullish(e) ==> r == Step(w, Raised(NullStack)))
      && (!IsNullish(e) && !Truthy(w.zones[self].error) ==> r.w.zones[self].error == e && r.w.zones[self].result.None?)
    ensures fuel > 0 && task.Finalize? && BareFinish(w, task.child) && IsNullish(w.zones[task.child].error) ==>
      r.status == Raised(NullStack)
    ensures fuel > 0 && task.Finalize? && BareFinish(w, task.child) && w.zones[task.child].parent == Some(self) ==>
      var e := w.zones[task.child].error;
      !IsNullish(e) && !Truthy(w.zones[self].error) ==> r.w.zones[self].error == e && r.w.zones[self].result.None?
    decreases fuel, 2
  {
    if fuel == 0 {
      return Step(w, OutOfFuel);
    }
    match task {
      case Run(fn) => r := RunActions(w, self, fn, [], fuel - 1);
      case Finalize(c) => r := Finalize(w, c, fuel - 1);
    }
    if r.status.Raised? {
      var w1 := r.w;
      r := CatchOn(w1, self, r.status.thrown);
      Chain(w, w1, r.w, {}, {});
    }
  }

  /** The first half of `finalize`: its assertions on the child, then the
      parent's `_unregister` of it. */
  method Detach(w: World, c: Id) returns (r: Step)
    requires Valid(w) && c in w.zones
    ensures Valid(r.w) && Extends(w, r.w) && Quiet(w, r.w, {})
    ensures !FinalizeReady(w.zones[c]) ==> r == Step(w, Raised(AssertionFailed))
    ensures FinalizeReady(w.zones[c]) ==>
      var z := w.zones[c];
      && z.parent.Some? && z.parent.value in w.zones
      && var p := z.parent.value;
      && (c !in w.zones[p].children ==> r == Step(w, Raised(UnregisterUnknown)))
      && (c in w.zones[p].children ==>
            && r.status.Ok?
            && r.w.zones[p].children == w.zones[p].children - {c}
            && r.w.zones[p].error == w.zones[p].error && r.w.zones[p].result == w.zones[p].result
            && r.w.deliveries == w.deliveries)
  {
    var z := w.zones[c];
    if !FinalizeReady(z) {
      return Step(w, Raised(AssertionFailed));
    }
    assert ZoneOk(w, c);
    var p := z.parent.value;
    assert ZoneOk(w, p);
    r := Bookkeep(w, p, UnregisterChild(w.zones[p], c));
  }

  /** `finalize` of a closed child, run by its parent's `invoke`: checks
      that the child is settled, unregisters it from the parent, then calls
      the completion callback on the parent with `[error].concat(result)`,
      or, without a callback, throws the child's error, which is `undefined`
      for a child that returned. */
  method Finalize(w: World, c: Id, fuel: nat) returns (r: Step)
    requires Valid(w) && c in w.zones
    ensures Valid(r.w) && Extends(w, r.w) && Quiet(w, r.w, {})
    ensures !FinalizeReady(w.zones[c]) ==> r == Step(w, Raised(AssertionFailed))
    ensures FinalizeReady(w.zones[c]) ==>
      var z := w.zones[c];
      && z.parent.Some? && z.parent.value in w.zones
      && var p := z.parent.value;
      && (c !in w.zones[p].children ==> r == Step(w, Raised(UnregisterUnknown)))
      && (c in w.zones[p].children && z.callback.None? ==>
            && r.status == Raised(z.error)
            && r.w.zones[p].children == w.zones[p].children - {c}
            && r.w.zones[p].error == w.zones[p].error && r.w.zones[p].result == w.zones[p].result
            && r.w.deliveries == w.deliveries)
      && (c in w.zones[p].children && z.callback.Some? ==>
            |r.w.deliveries| > |w.deliveries| && r.w.deliveries[|w.deliveries|] == Delivery(c, p, CallbackArgs(z)))
    decreases fuel, 1
  {
    var z := w.zones[c];
    r := Detach(w, c);
    if r.IsFailure() {
      return;
    }
    var p := z.parent.value;
    if z.callback.None? {
      return Step(r.w, Raised(z.error));
    }
    var d := Delivery(c, p, CallbackArgs(z));
    DeliveryAppend(r.w, d);
    var w2 := r.w.(deliveries := r.w.deliveries + [d]);
    Chain(w, r.w, w2, {}, {});
    if fuel == 0 {
      return Step(w2, OutOfFuel);
    }
    r := RunActions(w2, p, z.callback.value, CallbackArgs(z), fuel - 1);
    Chain(w, w2, r.w, {}, {});
  }

  /** Take the head of the queue of zone `id`. */
  method Shift(w: World, id: Id) returns (w': World, t: Task)
    requires Valid(w) && id in w.zones && w.zones[id].callbackQueue != []
    ensures Valid(w') && Extends(w, w') && Quiet(w, w', {id}) && TaskOk(w', t)
    ensures var q := w.zones[id].callbackQueue;
      t == q[0] && w'.zones[id] == w.zones[id].(callbackQueue := q[1..])
  {
    var z := w.zones[id];
    assert ZoneOk(w, id);
    t := z.callbackQueue[0];
    var z1 := z.(callbackQueue := z.callbackQueue[1..]);
    assert forall i :: 0 <= i < |z1.callbackQueue| ==> TaskOk(w, z1.callbackQueue[i]) by {
      forall i | 0 <= i < |z1.callbackQueue|
        ensures TaskOk(w, z1.callbackQueue[i])
      {
        assert z1.callbackQueue[i] == z.callbackQueue[i + 1];
      }
    }
    PutValid(w, z1);
    w' := Put(w, z1);
  }

  /** The inner loop of `flush`: take tasks off the front of the queue and
      invoke them until it is empty, including tasks they queue themselves.
      `ran` lists the tasks run, in order; the tasks queued on entry come
      first (first in, first out). */
  method Drain(w: World, id: Id, fuel: nat) returns (r: Step, ran: seq<Task>)
    requires Valid(w) && id in w.zones
    ensures Valid(r.w) && Extends(w, r.w) && Quiet(w, r.w, {id})
    ensures r.status.Raised? ==> Escapes(r.status.thrown)
    ensures r.status.Ok? ==> r.w.zones[id].callbackQueue == []
    ensures r.status.Ok? ==> w.zones[id].callbackQueue <= ran
    ensures r.w.zones[id].enterCount == w.zones[id].enterCount && r.w.zones[id].closed == w.zones[id].closed
    decreases fuel, 3
  {
    var cur := w;
    var budget: nat := fuel;
    ran := [];
    while cur.zones[id].callbackQueue != []
      invariant Valid(cur) && Extends(w, cur) && Quiet(w, cur, {id})
      invariant w.zones[id].callbackQueue <= ran + cur.zones[id].callbackQueue
      invariant cur.zones[id].enterCount == w.zones[id].enterCount && cur.zones[id].closed == w.zones[id].closed
      invariant budget <= fuel
      decreases budget
    {
      if budget == 0 {
        return Step(cur, OutOfFuel), ran;
      }
      var q := cur.zones[id].callbackQueue;
      var w1, t := Shift(cur, id);
      ChainSame(w, cur, w1, {id});
      assert ran + q == (ran + [t]) + w1.zones[id].callbackQueue;
      r := Invoke(w1, id, t, fuel - 1);
      ChainSame(w, w1, r.w, {id});
      if r.IsFailure() {
        return;
      }
      ran := ran + [t];
      Grow(w.zones[id].callbackQueue, ran, w1.zones[id].callbackQueue, r.w.zones[id].callbackQueue);
      cur := r.w;
      budget := budget - 1;
    }
    return Step(cur, Ok), ran;
  }

  /** A prefix of `a + b` stays a prefix when `b` grows at the back. */
  lemma Grow(p: seq<Task>, a: seq<Task>, b: seq<Task>, b': seq<Task>)
    requires p <= a + b && b <= b'
    ensures p <= a + b'
  {
    assert (a + b') [..|a + b|] == a + b;
  }

  /** The `do ... while` loop of `flush`: drain the queue, resolve a zone
      with no live refs to `[]`, stop without an outcome, signal the pending
      children, and go round again while work or children remain. */
  method FlushLoop(w: World, id: Id, fuel: nat) returns (r: Step)
    requires Valid(w) && id in w.zones
    ensures Valid(r.w) && Extends(w, r.w) && Quiet(w, r.w, {id})
    ensures r.w.zones[id].enterCount == w.zones[id].enterCount && r.w.zones[id].closed == w.zones[id].closed
    ensures r.status.Raised? ==> Escapes(r.status.thrown)
    ensures r.status.Ok? ==> var z := r.w.zones[id];
      && z.callbackQueue == []
      && (HasOutcome(z) || z.refCount > 0)
      && (HasOutcome(z) ==> Pending(z) == {})
    decreases fuel, 4
  {
    var cur := w;
    var budget: nat := fuel;
    while true
      invariant Valid(cur) && Extends(w, cur) && Quiet(w, cur, {id})
      invariant cur.zones[id].enterCount == w.zones[id].enterCount && cur.zones[id].closed == w.zones[id].closed
      invariant budget <= fuel
      decreases budget
    {
      if budget == 0 {
        return Step(cur, OutOfFuel);
      }
      var ran;
      r, ran := Drain(cur, id, fuel - 1);
      ChainSame(w, cur, r.w, {id});
      if r.IsFailure() {
        return;
      }
      var w1 := r.w;
      assert ZoneOk(w1, id);
      var z2 := AutoResolve(w1.zones[id]);
      Touch(w1, z2);
      var w2 := Put(w1, z2);
      ChainSame(w, w1, w2, {id});
      if !HasOutcome(z2) {
        return Step(w2, Ok);
      }
      var (w3, did) := SignalPass(w2, id);
      ChainSame(w, w2, w3, {id});
      var z3 := w3.zones[id];
      if !did || (z3.callbackQueue == [] && HasOutcome(z3) && z3.childCount == 0) {
        return Step(w3, Ok);
      }
      cur := w3;
      budget := budget - 1;
    }
  }

  /** `flush()`: asserts it is the outermost entry, runs the loop, then
      closes the zone and schedules its `finalize` on the parent exactly
      when it has no children, has an outcome and is not the root; finally
      clears `scheduled`. */
  method Flush(w: World, id: Id, fuel: nat) returns (r: Step)
    requires Valid(w) && id in w.zones
    ensures Valid(r.w) && Extends(w, r.w) && Quiet(w, r.w, {id})
    ensures r.w.zones[id].enterCount == w.zones[id].enterCount
    ensures w.zones[id].enterCount != 1 ==> r == Step(w, Raised(AssertionFailed))
    ensures w.zones[id].enterCount == 1 && r.status.Raised? ==> Escapes(r.status.thrown)
    ensures r.status.Ok? ==> Settled(w.zones[id].closed, r.w, id)
    decreases fuel, 1
  {
    var z := w.zones[id];
    if z.enterCount != 1 {
      return Step(w, Raised(AssertionFailed));
    }
    if fuel == 0 {
      return Step(w, OutOfFuel);
    }
    r := FlushLoop(w, id, fuel - 1);
    if r.IsFailure() {
      return;
    }
    var w1 := r.w;
    r := FlushEnd(w1, id);
    ChainSame(w, w1, r.w, {id});
  }

  /** The tail of `flush` after the loop. */
  method FlushEnd(w: World, id: Id) returns (r: Step)
    requires Valid(w) && id in w.zones && w.zones[id].enterCount != 0
    ensures Valid(r.w) && Extends(w, r.w) && Quiet(w, r.w, {id})
    ensures var z := w.zones[id];
      && r.w.zones[id] == z.(closed := r.w.zones[id].closed, scheduled := r.w.zones[id].scheduled)
      && r.w.zones[id].closed == (z.closed || CloseReady(z))
      && (r.status.Ok? ==> !r.w.zones[id].scheduled)
      && (!CloseReady(z) ==> r.status.Ok? && r.w.zones == w.zones[id := r.w.zones[id]])
      && (CloseReady(z) ==> z.parent.Some? && z.parent.value in w.zones)
      && (CloseReady(z) ==>
            var p := z.parent.value;
            && (r.status.Raised? <==> w.zones[p].closed)
            && (r.status.Raised? ==> r.status.thrown == ClosedError)
            && (r.status.Ok? ==> r.w.zones[p].callbackQueue == w.zones[p].callbackQueue + [Task.Finalize(id)]))
    ensures !r.status.OutOfFuel?
  {
    if !CloseReady(w.zones[id]) {
      var w1 := Unschedule(w, id);
      return Step(w1, Ok);
    }
    r := Close(w, id);
    if r.IsFailure() {
      return;
    }
    var w1 := r.w;
    var w2 := Unschedule(w1, id);
    Chain(w, w1, w2, {id}, {});
    r := Step(w2, Ok);
  }
}

=== FILE: program.dfy ===
/** The code a zone runs: bodies, queued callbacks and completion callbacks
    are JavaScript functions in the source; here they are lists of the
    actions such a function can perform on the engine. */
module Program {
  import opened Values

  /** One statement of user code. The receiver (`this`) is always the zone
      whose `invoke` runs the function. */
  datatype Action =
      /** `this.return(...values)` */
    | Return(values: seq<Value>)
      /** `this.throw(error)` */
    | Fail(error: Value)
      /** a JavaScript `throw error` escaping the function */
    | Raise(error: Value)
      /** `if (arguments[0]) throw arguments[0]`, the usual first line of a
          completion callback */
    | Rethrow
      /** `new Zone(body, ...)` in the ambient zone */
    | Spawn(body: seq<Action>, binding: Binding)
      /** `this.schedule(fn)` */
    | Defer(fn: seq<Action>)
      /** `this._register(id, gate, ref)`: a gate or other child */
    | Register(given: Option<Id>, ref: Value)
      /** `this._unregister(id)`, which is what closing a gate does */
    | Unregister(id: Id)
      /** `this._ref(id)` */
    | Ref(id: Id)
      /** `this._unref(id)` */
    | Unref(id: Id)
      /** `this.setCallback(fn)` */
    | SetCallback(fn: seq<Action>)

  /** How a spawned zone gets its completion callback: not at all, as the
      constructor's `callback` argument, or by `setCallback` right after the
      constructor returns (`new Zone(body).setCallback(fn)`). */
  datatype Binding =
    | NoCallback
    | AtConstruction(fn: seq<Action>)
    | Afterwards(fn: seq<Action>)

  /** An entry of a zone's `callbackQueue`: a scheduled function, or the
      `finalize` closure of a child zone that closed. */
  datatype Task = Run(fn: seq<Action>) | Finalize(child: Id)
}

=== FILE: values.dfy ===
/** JavaScript values as they flow through a zone: thrown values, result
    lists and callback arguments, plus the small wrappers the model uses. */
module Values {

  /** Identifiers of zones and of registered children come from a
      process-wide counter, so they are natural numbers. */
  type Id = nat

  datatype Option<+T> = None | Some(value: T) {
    function GetOr(default: T): T {
      match this
      case Some(v) => v
      case None => default
    }
  }

  /** A usage-error check either yields the updated record or the error
      object the source throws. */
  datatype Result<+T> = Success(value: T) | Failure(error: Value)

  /** The values a zone stores or passes on. `Error` is an `Error` object
      carrying its message; the others are the primitive values a body can
      throw or return. */
  datatype Value =
    | Undefined
    | Null
    | Bool(b: bool)
    | Num(n: int)
    | Str(s: string)
    | Error(message: string)

  /** JavaScript truthiness, which decides every `if (error)` of the engine. */
  predicate Truthy(v: Value) {
    match v
    case Undefined => false
    case Null => false
    case Bool(b) => b
    case Num(n) => n != 0
    case Str(s) => s != ""
    case Error(_) => true
  }

  /** `x == null` in JavaScript: true of `undefined` and `null` only. */
  predicate IsNullish(v: Value) {
    v.Undefined? || v.Null?
  }

  // The usage errors of the engine, with the source's messages.
  const ClosedError: Value := Error("This domain is closed")
  const ResultAlreadySet: Value := Error("Zone result already set.")
  const AlreadyRegistered: Value := Error("Can't register zone child: already registered")
  const UnregisterUnknown: Value := Error("Can't unregister child: not registered")
  const RefUnknown: Value := Error("Can't ref child: not registered")
  const UnrefUnknown: Value := Error("Can't unref child: not registered")
  const CallbackAlreadySet: Value := Error("Callback already set")
  /** What a failing `assert(...)` of the engine throws. */
  const AssertionFailed: Value := Error("AssertionError")
  /** What reading `zone.root` throws while no zone is ambient. */
  const NullAmbient: Value := Error("TypeError")
  /** What reading `e.stack` throws when the caught value `e` is `undefined`
      or `null`. */
  const NullStack: Value := Error("TypeError: cannot read property 'stack'")
}

=== FILE: zone.dfy ===
/** The per-zone bookkeeping of the `Zone` constructor and the closures that
    touch one zone only: child registration, reference counting, the outcome
    setters and the late callback binding. */
module ZoneRecord {
  import opened Values
  import opened Program

  /** The closure variables of one `Zone`. `children` holds the registered
      child ids (the child objects matter only as receivers of `signal`,
      whose default is a no-op); `refs` the ids counted as live;
      `sentSignals` the error already broadcast to each child. */
  datatype Zone = Zone(
    id: Id,
    parent: Option<Id>,
    isRoot: bool,
    root: Id,
    result: Option<seq<Value>>,
    error: Value,
    children: set<Id>,
    refs: set<Id>,
    sentSignals: map<Id, Value>,
    callbackQueue: seq<Task>,
    refCount: int,
    childCount: int,
    enterCount: int,
    scheduled: bool,
    closed: bool,
    callback: Option<seq<Action>>)

  /** The bookkeeping invariant: live refs are registered children, the
      counters match the sets, and a zone never holds both a result and a
      truthy error. A falsy error such as `0` may sit beside a result (see
      `FalsyErrorBesideResult`). */
  predicate Wf(z: Zone) {
    && z.refs <= z.children
    && z.childCount == |z.children|
    && z.refCount == |z.refs|
    && !(z.result.Some? && Truthy(z.error))
  }

  /** `error || result`: the zone has an outcome. */
  predicate HasOutcome(z: Zone) {
    Truthy(z.error) || z.result.Some?
  }

  /** The fields of a fresh zone (lines 57-74 of the constructor). */
  function NewZone(id: Id, parent: Option<Id>, isRoot: bool, root: Id, callback: Option<seq<Action>>): (z: Zone)
    ensures Wf(z) && !HasOutcome(z)
    ensures z.children == {} && z.refs == {} && z.sentSignals == map[] && z.callbackQueue == []
    ensures z.enterCount == 0 && !z.scheduled && !z.closed
    ensures z.id == id && z.parent == parent && z.isRoot == isRoot && z.root == root && z.callback == callback
  {
    Zone(id, parent, isRoot, root, None, Undefined, {}, {}, map[], [], 0, 0, 0, false, false, callback)
  }

  /** `_register(id, child, ref)` once the id and the ref flag are resolved:
      refuses an id already registered, otherwise adds it to `children` and,
      when `ref`, to `refs`, bumping the matching counters. */
  function RegisterChild(z: Zone, id: Id, ref: bool): (r: Result<Zone>)
    ensures r.Failure? <==> id in z.children
    ensures r.Failure? ==> r.error == AlreadyRegistered
    ensures r.Success? ==> r.value.children == z.children + {id}
    ensures r.Success? ==> r.value.childCount == z.childCount + 1
    ensures r.Success? ==> r.value.refs - {id} == z.refs - {id}
    ensures r.Success? && Wf(z) ==> (id in r.value.refs <==> ref)
    ensures r.Success? ==> r.value.refCount == z.refCount + (if ref then 1 else 0)
    ensures r.Success? ==> r.value.(children := z.children, refs := z.refs, childCount := z.childCount, refCount := z.refCount) == z
    ensures r.Success? && Wf(z) ==> Wf(r.value)
  {
    if id in z.children then Failure(AlreadyRegistered)
    else
      var z1 := z.(childCount := z.childCount + 1, children := z.children + {id});
      assert |z.children + {id}| == |z.children| + 1;
      assert Wf(z) ==> id !in z.refs && |z.refs + {id}| == |z.refs| + 1;
      Success(if ref then z1.(refCount := z1.refCount + 1, refs := z1.refs + {id}) else z1)
  }

  /** `_unregister(id)`: refuses an unknown id, otherwise drops it from
      `children` and, if it was live, from `refs`. */
  function UnregisterChild(z: Zone, id: Id): (r: Result<Zone>)
    ensures r.Failure? <==> id !in z.children
    ensures r.Failure? ==> r.error == UnregisterUnknown
    ensures r.Success? ==> r.value.children == z.children - {id} && r.value.refs == z.refs - {id}
    ensures r.Success? ==> r.value.childCount == z.childCount - 1
    ensures r.Success? ==> r.value.refCount == z.refCount - (if id in z.refs then 1 else 0)
    ensures r.Success? ==> r.value.(children := z.children, refs := z.refs, childCount := z.childCount, refCount := z.refCount) == z
    ensures r.Success? && Wf(z) ==> Wf(r.value)
  {
    if id !in z.children then Failure(UnregisterUnknown)
    else
      var z1 := z.(childCount := z.childCount - 1, children := z.children - {id});
      Success(if id in z.refs then z1.(refCount := z1.refCount - 1, refs := z1.refs - {id}) else z1)
  }

  /** `_ref(id)`: refuses an unregistered id; marks a registered one live. */
  function RefChild(z: Zone, id: Id): (r: Result<Zone>)
    ensures r.Failure? <==> id !in z.children
    ensures r.Failure? ==> r.error == RefUnknown
    ensures r.Success? ==> r.value.refs == z.refs + {id}
    ensures r.Success? ==> r.value.refCount == z.refCount + (if id in z.refs then 0 else 1)
    ensures r.Success? ==> r.value.(refs := z.refs, refCount := z.refCount) == z
    ensures r.Success? && Wf(z) ==> Wf(r.value)
  {
    if id !in z.children then Failure(RefUnknown)
    else if id in z.refs then Success(z)
    else Success(z.(refCount := z.refCount + 1, refs := z.refs + {id}))
  }

  /** `_unref(id)`: refuses an unregistered id; marks a registered one as no
      longer live. */
  function UnrefChild(z: Zone, id: Id): (r: Result<Zone>)
    ensures r.Failure? <==> id !in z.children
    ensures r.Failure? ==> r.error == UnrefUnknown
    ensures r.Success? ==> r.value.refs == z.refs - {id}
    ensures r.Success? ==> r.value.refCount == z.refCount - (if id in z.refs then 1 else 0)
    ensures r.Success? ==> r.value.(refs := z.refs, refCount := z.refCount) == z
    ensures r.Success? && Wf(z) ==> Wf(r.value)
  {
    if id !in z.children then Failure(UnrefUnknown)
    else if id !in z.refs then Success(z)
    else Success(z.(refCount := z.refCount - 1, refs := z.refs - {id}))
  }

  /** The state change of `throw(error_)`: the first truthy error wins; a
      zone without one takes the new error and loses its result. */
  function RecordError(z: Zone, e: Value): (z': Zone)
    ensures Truthy(z.error) ==> z' == z
    ensures !Truthy(z.error) ==> z'.error == e && z'.result.None?
    ensures z'.(result := z.result, error := z.error) == z
    ensures Wf(z) ==> Wf(z')
  {
    if Truthy(z.error) then z else z.(result := None, error := e)
  }

  /** The state change of `return(...values)` on a zone with neither a
      truthy error nor a result. */
  function RecordResult(z: Zone, values: seq<Value>): (z': Zone)
    requires !Truthy(z.error) && z.result.None?
    ensures z'.result == Some(values) && HasOutcome(z')
    ensures z'.(result := z.result) == z
    ensures Wf(z) ==> Wf(z')
  {
    z.(result := Some(values))
  }

  /** Step 2 of `flush`: a zone with no live refs and no outcome resolves to
      the empty result. */
  function AutoResolve(z: Zone): (z': Zone)
    ensures z.refCount == 0 ==> HasOutcome(z')
    ensures HasOutcome(z) || z.refCount != 0 ==> z' == z
    ensures z'.result != z.result ==> z'.result == Some([])
    ensures z'.(result := z.result) == z
    ensures Wf(z) ==> Wf(z')
  {
    if z.refCount == 0 && !HasOutcome(z) then z.(result := Some([])) else z
  }

  /** `setCallback(callback_)`: binds the completion callback once. */
  function BindCallback(z: Zone, fn: seq<Action>): (r: Result<Zone>)
    ensures r.Failure? <==> z.callback.Some?
    ensures r.Failure? ==> r.error == CallbackAlreadySet
    ensures r.Success? ==> r.value.callback == Some(fn)
    ensures r.Success? ==> r.value.(callback := z.callback) == z
  {
    if z.callback.Some? then Failure(CallbackAlreadySet) else Success(z.(callback := Some(fn)))
  }

  /** The condition under which `flush` closes the zone and schedules its
      `finalize` on the parent. */
  predicate CloseReady(z: Zone) {
    z.childCount == 0 && HasOutcome(z) && !z.isRoot
  }

  /** The assertions `finalize` makes before it does anything. */
  predicate FinalizeReady(z: Zone) {
    && z.enterCount == 0
    && !z.scheduled
    && z.closed
    && z.childCount == 0
    && z.refCount == 0
    && HasOutcome(z)
  }

  /** `[error].concat(result || [])`: the arguments of the completion
      callback. */
  function CallbackArgs(z: Zone): seq<Value>
  {
    [z.error] + z.result.GetOr([])
  }

  /** Children that have not yet received a signal. */
  function Pending(z: Zone): set<Id> {
    z.children - z.sentSignals.Keys
  }

  // ----- Properties relating several calls -----

  /** Registering a fresh id and unregistering it again restores the zone. */
  lemma {:induction false} RegisterUnregister(z: Zone, id: Id, ref: bool)
    requires Wf(z) && id !in z.children
    ensures RegisterChild(z, id, ref).Success?
    ensures UnregisterChild(RegisterChild(z, id, ref).value, id) == Success(z)
  {
    var z1 := RegisterChild(z, id, ref).value;
    assert z1.children - {id} == z.children;
    assert id !in z.refs;
    assert z1.refs - {id} == z.refs;
  }

  /** `_ref` is idempotent. */
  lemma RefIdempotent(z: Zone, id: Id)
    requires RefChild(z, id).Success?
    ensures RefChild(RefChild(z, id).value, id) == RefChild(z, id)
  {
  }

  /** `_unref` is idempotent. */
  lemma UnrefIdempotent(z: Zone, id: Id)
    requires UnrefChild(z, id).Success?
    ensures UnrefChild(UnrefChild(z, id).value, id) == UnrefChild(z, id)
  {
  }

  /** `_unref` undoes a `_ref` of a registered child that was not live. */
  lemma {:induction false} RefUnref(z: Zone, id: Id)
    requires id in z.children && id !in z.refs
    ensures UnrefChild(RefChild(z, id).value, id) == Success(z)
  {
    assert (z.refs + {id}) - {id} == z.refs;
  }

  /** First error wins: once a truthy error is recorded, later failures
      change nothing. */
  lemma FirstErrorWins(z: Zone, e1: Value, e2: Value)
    requires Truthy(e1)
    ensures RecordError(RecordError(z, e1), e2) == RecordError(z, e1)
    ensures RecordError(RecordError(z, e1), e2).error == (if Truthy(z.error) then z.error else e1)
  {
  }

  /** A completion callback is bound at most once: after a successful
      `setCallback`, a second one fails and the first callback stays. */
  lemma BindOnce(z: Zone, f1: seq<Action>, f2: seq<Action>)
    requires z.callback.None?
    ensures BindCallback(z, f1).Success?
    ensures BindCallback(BindCallback(z, f1).value, f2) == Failure(CallbackAlreadySet)
    ensures BindCallback(z, f1).value.callback == Some(f1)
  {
  }

  /** `throw` only tests the error for truthiness, so a falsy error does not
      block a later outcome: after `throw(0)` the zone has error `0` and no
      result, and both `return(...values)` and the empty result of `flush`
      then set a result beside that `0`. */
  lemma FalsyErrorBesideResult(z: Zone, e: Value, values: seq<Value>)
    requires Wf(z) && !Truthy(z.error) && !Truthy(e)
    ensures var z1 := RecordError(z, e);
      && z1.error == e && z1.result.None? && !HasOutcome(z1)
      && RecordResult(z1, values).error == e && RecordResult(z1, values).result == Some(values)
      && (z.refCount == 0 ==> AutoResolve(z1).error == e && AutoResolve(z1).result == Some([]))
  {
  }
}
